=== FILE: README.md ===
# productfc product service — a Dafny model

This project models the core of the productfc product service in Dafny 4.11:

- The two Kafka stock consumers. The deduction consumer calls
  `DeductProductStockByProductID` once per item of a stock event. The rollback
  consumer calls `AddProductStockByProductID` in the same way. A read error,
  an undecodable message or a failing item is skipped, and the loop goes on.
- The read-through product lookup. It checks Redis first and falls back to
  the database. It writes the loaded record back for ten minutes. The
  category lookup goes straight to the database.
- The database adapter (`ProductRepository` over the `product` and
  `product_category` tables). Its lookups return a zero-valued record, not an
  error, when no row matches. It inserts products, adjusts stock, and turns
  search parameters into `ORDER BY` / `LIMIT` / `OFFSET`.
- The Redis adapter. It stores JSON snapshots under `product:<id>` and
  `product_category:<id>` with SETEX. Products live 600 s and categories
  60 s.
- The HTTP handlers' decision logic:
  - which response a request gets;
  - the action/id table of the two management endpoints;
  - the page arithmetic of product search.

Go's semantics are written out where they matter:

- int64 wrap-around (`GoInt.Wrap64`) and truncating division
  (`GoInt.TruncDiv`);
- `strconv.ParseInt` and `strconv.Atoi`, including the clamped value that
  `v, _ := Atoi(s)` keeps on a range error;
- `fmt`'s `%d` (`Strconv.FormatInt`);
- `encoding/json`'s struct rules. A JSON `null` is a no-op, a missing key
  keeps the zero value, an unknown key is ignored, and a type mismatch or an
  out-of-range number is an error;
- gin's `DefaultQuery`.

Failures of the database or Redis client are explicit `fault: Option<Error>`
parameters. A delivered Kafka message carries the set of item positions whose
stock update fails. Time is an integer clock in seconds, and a cache entry is
live while the clock is below its expiry.

The goroutine that writes a loaded product back to Redis is returned as a
`Service.WriteBack` value. `Service.Populate` performs it as a separate step,
so the interleavings of the write-back with later reads can be stated.

Behaviour of the code that is kept as written and proved as a property:

- Lookups use the id-0 sentinel: a row genuinely stored under id 0 reads as
  missing.
- There is no negative caching: a miss is written back as the sentinel, and
  the sentinel is not a hit.
- Stock has no floor.
- Redelivering a stock event applies it twice.
- A cached product can be stale for up to ten minutes.

Modules, one file each:

| module | file | contents |
|---|---|---|
| `Wrappers` | wrappers.dfy | `Option`, `Result` |
| `GoInt` | goint.dfy | int64 bounds, wrap-around, truncating division |
| `Strconv` | strconv.dfy | `%d`, `ParseInt`/`Atoi` |
| `Models` | models.dfy | `Product`, `ProductCategory`, `Error`, `StockEvent` |
| `Json`, `Codec` | json.dfy | JSON values and the product/category codec |
| `Database` | database.dfy | the database adapter |
| `RedisCache` | redis.dfy | the Redis adapter |
| `Service` | service.dfy | the product service |
| `Consumer` | consumer.dfy | both stock consumers |
| `Handler` | handler.dfy | the HTTP handlers' decisions |

## Model

| member | source | states |
|---|---|---|
| Strconv.ParseInt | cmd/product/handler/handler.go:35 | `strconv.ParseInt(s, 10, 64)`. A literal, meaning an optional sign followed by decimal digits with leading zeros allowed, parses to its value when that fits int64. Above the range it is a range error clamped to MaxInt64, and below it one clamped to MinInt64. Any other input is a syntax error: always when it has no digit after the sign, and whenever it has at most 20 characters. A parsed value is always a literal that fits int64. |
| Strconv.Atoi | cmd/product/handler/handler.go:78 | `strconv.Atoi` on a 64-bit platform, with the same contract as `ParseInt`. A literal gives its value, or the bound it overflows, and a non-literal of at most 20 characters is a syntax error. |
| Strconv.ParseIntSamples | cmd/product/handler/handler.go:35 | `5x` and `1.5` are syntax errors. `05`, `+5` and `-05` parse to 5, 5 and -5. |
| Strconv.FormatInt | cmd/product/repository/redis.go:25 | `%d`: a leading minus exactly for negative values, followed by decimal digits. |
| Strconv.ParseFormatRoundTrip | cmd/product/repository/redis.go:25 | Every int64 written with `%d` parses back to itself. This is why an id written into a key or URL reads back unchanged. |
| Strconv.FormatIntInjective | cmd/product/repository/redis.go:16-17 | Distinct integers have distinct `%d` spellings. This is the basis of the cache key formats. |
| Codec.UnmarshalProduct | cmd/product/repository/redis.go:38-41 | `json.Unmarshal` into a product. Malformed text is an error. JSON null gives the zero product. A non-object is an error. A decoded product always has int64 id, stock and category. |
| Codec.UnmarshalCategory | cmd/product/repository/redis.go:63-66 | The same rules for a category. |
| Codec.MarshalProduct | cmd/product/repository/redis.go:78 | `json.Marshal` of a product writes an object with exactly the six field keys. Decoding what it writes gives the same product back. |
| Codec.MarshalCategory | cmd/product/repository/redis.go:98 | `json.Marshal` of a category writes an object with exactly the id and name keys. Decoding what it writes gives the same category back. |
| Codec.ProductRoundTrip | cmd/product/repository/redis.go:78-83 | Unmarshalling the JSON that Marshal writes gives the same product back. |
| Codec.CategoryRoundTrip | cmd/product/repository/redis.go:98-103 | Unmarshalling the JSON that Marshal writes gives the same category back. |
| Codec.ProductFieldTypeMismatch | cmd/product/repository/redis.go:38-42 | A numeric field of the wrong JSON type makes the whole decode fail. No partly decoded product is returned. |
| Database.FindProductByID | cmd/product/repository/database.go:18-30 | A client error is returned as is. Otherwise the call succeeds. An absent id gives the zero product, never an error. A non-zero record is the stored row for that id. On a well-formed table, a non-zero result means a stored, non-zero id. |
| Database.FindProductCategoryByID | cmd/product/repository/database.go:36-48 | The same contract for categories. |
| Database.IdZeroIndistinguishable | cmd/product/repository/database.go:20-29 | A row genuinely stored under id 0 reads exactly like an absent row. |
| Database.InsertNewProduct | cmd/product/repository/database.go:54-61 | The returned id is 0 exactly when there is an error. On success the row is stored under the new id, a given non-zero id is kept, and no existing row is overwritten. An existing key is an error. On failure the table is unchanged. |
| Database.InsertThenFind | cmd/product/repository/database.go:18-61 | After a successful insert, the lookup of the returned id finds the inserted record carrying that id. A failed insert leaves every lookup unchanged. |
| Database.InsertKeepsValid | cmd/product/repository/database.go:54-61 | An insert keeps the table well formed. |
| Database.DeductProductStockByProductID | cmd/product/repository/database.go:80-90 | On success only the product's stock changes, by `-qty`. Every other row and the category table are unchanged. A client error is returned as is. |
| Database.AddProductStockByProductID | cmd/product/repository/database.go:96-106 | On success only the product's stock changes, by `+qty`. Everything else is unchanged. |
| Database.DeductThenAddRestores | cmd/product/repository/database.go:80-106 | Deducting and then adding back the same quantity restores the table exactly. |
| Database.DeductHasNoFloor | cmd/product/repository/database.go:80-90 | A deduction larger than the stock makes the stock negative. |
| Database.SearchPlan | cmd/product/repository/database.go:195-207 | An empty order column becomes `product.name`, and a given column is kept. A direction of ASC or DESC is kept, and any other direction, empty included, becomes ASC. The limit is the page size. The offset is `(page-1)*pageSize` whenever that fits int64. |
| Database.SearchDefaultsIdempotent | cmd/product/repository/database.go:195-201 | Feeding the chosen order column and direction back in gives the same plan. |
| Database.ConsecutivePagesAdjacent | cmd/product/repository/database.go:206-207 | Page p+1 starts where page p ends: no row is skipped or shown twice. |
| RedisCache.Get | cmd/product/repository/redis.go:28-35 | A value is returned exactly when the key holds an entry that has not expired. It is the stored text. |
| RedisCache.SetEx | cmd/product/repository/redis.go:83 | SETEX: afterwards the key holds the new text and expires `ttl` seconds from now. Every other key is present exactly as before, with the same entry. |
| RedisCache.ProductKey | cmd/product/repository/redis.go:16-25 | A product key is the `product:` prefix followed by text from which the int64 id parses back. |
| RedisCache.CategoryKey | cmd/product/repository/redis.go:50-51 | A category key is the `product_category:` prefix followed by text from which the id parses back. |
| RedisCache.ProductKeyInjective | cmd/product/repository/redis.go:16-25 | Distinct product ids have distinct cache keys. |
| RedisCache.CategoryKeyInjective | cmd/product/repository/redis.go:16-17 | Distinct category ids have distinct cache keys. |
| RedisCache.KeysNeverCollide | cmd/product/repository/redis.go:16-17 | No product key equals a category key. |
| RedisCache.GetProductByIDFromRedis | cmd/product/repository/redis.go:24-44 | A client error is returned as is. A miss is the zero product, not an error. A live entry is decoded. A success always decodes to a valid product. |
| RedisCache.GetProductCategoryByIDFromRedis | cmd/product/repository/redis.go:50-69 | The same contract for categories. |
| RedisCache.UndecodableEntryIsError | cmd/product/repository/redis.go:38-41 | A live entry that is not JSON is an error, never a record. |
| RedisCache.SetProductByID | cmd/product/repository/redis.go:75-89 | A client error is returned. Otherwise only the key of the id argument is written, and every other key is kept. |
| RedisCache.SetProductCategoryByID | cmd/product/repository/redis.go:95-109 | The same contract for categories. |
| RedisCache.SetThenGetProduct | cmd/product/repository/redis.go:75-83 | A read of the same id within 600 s of the write returns the written product, whatever id the record itself carries. |
| RedisCache.ProductEntryExpires | cmd/product/repository/redis.go:83 | From 600 s after the write on, a read is a miss. |
| RedisCache.SetThenGetCategory | cmd/product/repository/redis.go:95-103 | A read of the same id within 60 s of the write returns the written category. |
| RedisCache.CategoryEntryExpires | cmd/product/repository/redis.go:103 | From 60 s after the write on, a read is a miss. |
| RedisCache.SetProductTouchesOneKey | cmd/product/repository/redis.go:76 | A product write changes neither the cached view of any other product id nor any category. |
| Service.LoadFromDb | cmd/product/service/service.go:71-87 | Returns the database result, sentinel included. It schedules a write-back of exactly that record under the requested id, and only on success. |
| Service.GetProductByIDAsWritten | cmd/product/service/service.go:58-88 | The code as written. It panics on a nil dereference exactly when the cache read fails. |
| Service.CacheErrorPanics | cmd/product/service/service.go:60-67 | Every cache error, whether from the client or an undecodable entry, leads to the nil dereference. |
| Service.GetProductByID | cmd/product/service/service.go:58-88 | The corrected lookup. The database is skipped exactly on a non-sentinel cache hit, which is returned with no write-back. Otherwise this is the database half. An error comes only from the database. A write-back carries the returned record under the requested id. |
| Service.AsWrittenAgreesWithoutCacheError | cmd/product/service/service.go:60-88 | Wherever the code does not panic, it gives the same answer as the corrected lookup. |
| Service.CacheErrorIsSoft | cmd/product/service/service.go:60-72 | In the corrected lookup, a cache error behaves exactly like an empty cache. |
| Service.Populate | cmd/product/service/service.go:78-85 | The detached write-back. A failed SETEX is dropped, and the cache stays as it was. |
| Service.ReadThroughThenHit | cmd/product/service/service.go:58-88 | A stored, uncached product is loaded from the database. After its write-back, every read within 600 s is a hit with that record, even if the database has changed since. |
| Service.NoNegativeCaching | cmd/product/service/service.go:67-85 | A missing product is written back as the sentinel. The next read goes to the database again. |
| Service.ExpiredEntryRereads | cmd/product/service/service.go:67-75 | After 600 s the lookup reads the database's current contents. |
| Service.GetProductCategoryByID | cmd/product/service/service.go:94-101 | The database's error is passed through, and an absent id gives the zero category. On a well-formed table, the answer is a real category exactly when the id is stored and non-zero, and it is then the stored row. |
| Service.CategoryLookupIgnoresCache | cmd/product/service/service.go:94-101 | The category answer does not depend on the cache. |
| Service.DeductProductStockByProductID | cmd/product/service/service.go:32-39 | The repository's error is passed through. On success the database change is the repository's, and the cache is untouched. |
| Service.AddProductStockByProductID | cmd/product/service/service.go:45-52 | The same contract for adding stock. |
| Consumer.ApplyItems | kafka/consumer/update_stock.go:57-63 | After one event's item loop, each stored product's stock has moved by the signed total of its succeeding items. The set of products, the categories, the id sequences and the cache are unchanged. |
| Consumer.UntouchedProductUnchanged | kafka/consumer/update_stock.go:57-63 | A product that no item names keeps its whole record. |
| Consumer.FailuresAreIsolated | kafka/consumer/update_stock.go:58-62 | A failing item loses only its own update. The event acts like its succeeding items applied in order. |
| Consumer.DeductionThenRollbackNetZero | kafka/consumer/revert_stock.go:54-60 | A rollback event with the same items, in which the same items fail, undoes a deduction event exactly. |
| Consumer.RedeliveryAppliesTwice | kafka/consumer/update_stock.go:41-64 | A redelivered event deducts a second time. The consumer is not idempotent. |
| Consumer.Consume | kafka/consumer/update_stock.go:41-64 | After a stream of messages, each stored product's stock has moved by the signed total of the succeeding items over all delivered messages. Nothing else changes. |
| Consumer.BadMessageSkipped | kafka/consumer/update_stock.go:42-54 | A read error or an undecodable message changes nothing. The messages after it are processed as if it were absent. |
| Consumer.Run | kafka/consumer/revert_stock.go:41-61 | The loop, message by message and item by item. It records one service call per item of each delivered message, in delivery order, at the moment it makes the call. It ends in exactly the state `Consume` describes. |
| Handler.ProductResponse | cmd/product/handler/handler.go:47-71 | 200 with the record exactly when the lookup returned a non-sentinel product. 500 exactly on an error. Otherwise 400 "Product Not Exists". |
| Handler.CategoryResponse | cmd/product/handler/handler.go:90-114 | The same table for categories, with "Product Category Not Exists". |
| Handler.GetProductInfo | cmd/product/handler/handler.go:32-72 | The handler on top of the corrected lookup `Service.GetProductByID`. An id that does not parse as int64 gives 400 "Invalid Product ID" and no lookup. Otherwise the answer follows the corrected read-through lookup of the parsed id. |
| Handler.GetProductInfoAsWritten | cmd/product/handler/handler.go:32-72 | The handler as written, over `Service.GetProductByIDAsWritten`. An unparsable id gives 400 "Invalid Product ID". The response is the bare 500 of gin's Recovery exactly when the id parses and the cache read fails. In every other case it is the corrected handler's response. |
| Handler.CacheErrorAnswers500 | cmd/product/service/service.go:60-67 | A stored product requested while Redis fails gets a 500 from the program, and the corrected handler serves the stored record. |
| Handler.GetProductCategoryInfo | cmd/product/handler/handler.go:75-115 | `Atoi` failure gives 400 "Invalid Product ID". Otherwise the category lookup decides. A 200 needs a well-formed integer id. |
| Handler.StoredProductIsServed | cmd/product/handler/handler.go:35-71 | A stored product requested by its own id, with nothing cached, is served with its stored record. |
| Handler.IdZeroReportedMissing | cmd/product/handler/handler.go:59-67 | A product stored under id 0 is answered "Product Not Exists". |
| Handler.ProductManagement | cmd/product/handler/handler.go:118-234 | The whole decision table. An unbound body gives "Invalid Input". An empty action gives "Missing required parameter". add with an id, or edit/delete without one, gives "Invalid Request". Any other action gives "Invalid Action". A use case is called exactly for a well-formed command, and delete is called with the given id. |
| Handler.ProductCategoryManagement | cmd/product/handler/handler.go:237-351 | A use case is called exactly for a well-formed command, and delete is called with the given id. |
| Handler.ManagementTablesAgree | cmd/product/handler/handler.go:247-350 | The category endpoint decides every request exactly as the product endpoint does. |
| Handler.PageParameters | cmd/product/handler/handler.go:361-362 | An absent page is 1 and an absent pageSize is 2. A present value, even an empty one, is parsed with `Atoi`. A value that parses is used as parsed. An out-of-range value becomes the clamped int64 bound. A value with a syntax error becomes 0, for example `abc`, `5x` or `1.5`. Both are int64. |
| Handler.PageParametersRoundTrip | cmd/product/handler/handler.go:361-362 | Any int64 page and page size written into the query with `%d` are read back unchanged. |
| Handler.TotalPagesAsWritten | cmd/product/handler/handler.go:391 | The formula as written, with int64 wrap-around of both the sum and the quotient. It panics exactly when pageSize is 0, and otherwise gives an int64. |
| Handler.NonNumericPageSizePanics | cmd/product/handler/handler.go:362-391 | `pageSize=abc` becomes 0, and the page count then divides by zero. |
| Handler.HugePageSizeWraps | cmd/product/handler/handler.go:391 | With pageSize = 2^63-1 and 2 results, the wrapped formula gives -1 pages where the ceiling is 1. |
| Handler.NegativePageSizeReportsNegativePages | cmd/product/handler/handler.go:362-391 | A negative `pageSize` is kept as parsed and does not panic. Ten rows with a size of -3 give -2 pages as written. The corrected search uses a size of 2 and gives 5 pages. |
| Handler.EffectivePageSize | cmd/product/handler/handler.go:362 | The corrected page size is always at least 1 and keeps any positive value. |
| Handler.TotalPages | cmd/product/handler/handler.go:391 | The corrected page count is the ceiling of totalCount/pageSize. It is 0 exactly for no results, and it covers every row with no empty last page. |
| Handler.TotalPagesAgree | cmd/product/handler/handler.go:391 | Where the numerator fits int64 and the size is positive, the written formula equals the corrected count. |
| Handler.NextPage | cmd/product/handler/handler.go:393-398 | A next link exists exactly while the page is before the last. It points at the following page, never past the last one, with the same page size. |
| Handler.SearchProduct | cmd/product/handler/handler.go:354-411 | The corrected search. The request passes down the parsed page, the requested order column and direction, and the requested page size, raised to 2 when it is below 1. A count error is a 500. Otherwise the answer is 200. It reports the requested page, that page size, the count, and the page count `TotalPages` of the count, which covers every row. A next link to page+1 with the same size is present exactly when the requested page is before the last one. |
| Handler.LastPageHasNoLink | cmd/product/handler/handler.go:393-398 | The last page has no next link. Page 1 has one exactly when there is more than one page of results. |

## Left out

- HTTP framing is reduced to a `Response` value: 200, 400 or 500 with the message, or the bare 500 of gin's Recovery after a panic. The JSON body layout, logging and request ids are not modelled.
- Handler.SearchProduct: the search is built on the corrected page size `Handler.EffectivePageSize` and the ceiling `Handler.TotalPages`, so every size below 1 becomes 2. The program as written panics only for a size of 0. For a negative size it answers 200 with the raw size as `pageSize`, reports `TotalPagesAsWritten`'s truncated quotient as `totalPages`, and hands the negative size to the repository, whose `Limit` then drops the LIMIT. Ten rows in pages of -3 are reported as -2 pages (`Handler.NegativePageSizeReportsNegativePages`). That answer is not modelled as a `SearchOutcome`.
- Handler.SearchProduct: the text of the next-page URL is not modelled. That includes the host, the name and category echo and the `%0.f` price formatting. Only its page and page size are kept.
- The search filters (name, category, min/max price), the rows themselves and the float price bounds are left out. The repository's match count is an input. The `ORDER BY` text `"%s %s"` is carried as its two parts in `Database.QueryPlan`.
- Codec.UnmarshalProduct: price is carried as an integer. The float64 column and its JSON number formatting are not modelled.
- RedisCache.SetProductByID: `json.Marshal` fails on a NaN or infinite float64 price, and the program then returns that error without writing. With the integer price of this model, marshalling cannot fail, so that error path is not modelled.
- The JSON text grammar is left out. Cached text is either a well-formed JSON value or malformed.
- The models' struct tags are not modelled. The field keys (`id`, `name`, `description`, `price`, `stock`, `category_id`) are chosen names, and encoding/json's case-insensitive key matching is not modelled.
- The Kafka reader is not modelled: connection, offsets, consumer groups, context cancellation and the endless loop. A run is a finite sequence of messages.
- The start-up in main.go that launches the consumers is left out. As written, `Start` on the deduction consumer (main.go:39) runs its endless read loop (kafka/consumer/update_stock.go:41) in the calling goroutine, so the rollback consumer (main.go:47) and the HTTP router (main.go:50-52) are never started.
- Concurrency is not modelled. The write-back goroutine is a value applied by `Service.Populate`, and the interleavings of separate requests are sequences of calls.
- Service.Populate: the write-back runs under a context derived from the request context. The request logger cancels that context when the handler returns, after a 2-second timeout at most (middleware/request_logger.go:17-18). So the SETEX races that cancellation and can fail. That failure is the `fault` argument of `Populate`. `Service.ReadThroughThenHit` describes the case where the write-back completes. Which side wins the race is not modelled.
- Handler.GetProductInfo is built on the corrected lookup, in which a cache error falls through to the database. The program as written panics on a cache error, and gin's Recovery answers 500. That behaviour is `Handler.GetProductInfoAsWritten`.
- The gorm and go-redis clients are not modelled. Their failures are `fault` parameters, and which stock updates fail is part of a delivered message.
- Database.DeductProductStockByProductID: `.Updates(...)` is called before `.Where("id = ?", ...)`, and `gorm.Expr` is given `%d` where gorm expects `?`. The model follows the documented intent, which is a `stock - qty` update of the one row with that id. The SQL those calls actually produce is not modelled.
- Database.AddProductStockByProductID: the same call ordering applies, and the model is the documented `stock + qty` update of one row.
- Database.DeductProductStockByProductID: stock arithmetic is unbounded. The overflow of the stock column is not modelled because the column type is not part of this model.
- Database.InsertNewProduct: running out of id sequence values is not modelled. `InsertKeepsValid` requires room in the sequence.
- The usecase layer is left out. For these operations it passes calls straight through to the service.
- Configuration and logging are left out.
- The following repository and service operations are left out because they are outside the stock, lookup and paging core: InsertNewProductCategory, UpdateProduct, UpdateProductCategory, DeleteProduct, DeleteProductCategory, CreateNewProduct and EditProdut. The management handlers are modelled up to the decision of which use case to call. What happens after that call is not modelled.
- Strconv.ParseInt: only base 10 is modelled, as the handlers use. The text of Go's error values is not modelled.
- Strconv.ParseInt: for a non-literal longer than 20 characters, the contract does not say which error it gives. The function follows ParseUint's digit loop, so the answer is a range error when the digits before the first non-digit already pass 2^64-1, and a syntax error otherwise.
- Strconv.Atoi: the same gap as `Strconv.ParseInt`, since it is `ParseInt` on a 64-bit platform. For a non-literal longer than 20 characters the contract does not say which error it gives.

## Findings

| source | as written | input that shows it | evidently intended | confidence | as-written member | corrected member |
|---|---|---|---|---|---|---|
| cmd/product/service/service.go:60-67 | On a cache error the adapter returns a nil product. The error is only logged, and `product.ID` is then read, which is a nil dereference. | Any failing Redis GET, or a live entry that is not JSON (`Service.CacheErrorPanics`). | Treat a cache error as a miss and read the database. | not executed; high | Service.GetProductByIDAsWritten | Service.GetProductByID |
| cmd/product/handler/handler.go:362-391 | `pageSize, _ := strconv.Atoi(...)` keeps 0 for a non-numeric value, and `(totalCount + pageSize - 1) / pageSize` then divides by zero. The same happens for `pageSize=0`. A negative value does not panic but is reported as a negative page count. | `pageSize=abc` (`Handler.NonNumericPageSizePanics`); `pageSize=-3` with 10 matching rows gives -2 pages (`Handler.NegativePageSizeReportsNegativePages`). | A page size of at least 1, falling back to the default of 2. | not executed; high | Handler.TotalPagesAsWritten | Handler.TotalPages |
| cmd/product/handler/handler.go:391 | `totalCount + pageSize - 1` wraps around in 64-bit int. | `pageSize=9223372036854775807` with 2 matching rows gives -1 pages (`Handler.HugePageSizeWraps`). | The ceiling of totalCount/pageSize, here 1. | not executed; medium | Handler.TotalPagesAsWritten | Handler.TotalPages |

=== FILE: consumer.dfy ===
/** The two stock consumers (kafka/consumer/update_stock.go and
    kafka/consumer/revert_stock.go). Each reads messages one at a time,
    decodes a StockEvent, and calls the service once per item, in list order:
    DeductProductStockByProductID on the deduction topic,
    AddProductStockByProductID on the rollback topic. A read error, an
    undecodable message or a failing item is skipped and the loop goes on.

    The broker is a finite sequence of messages. Which item updates the store
    rejects is environment behaviour, so a delivered message carries the set of
    item positions whose update fails. */
module Consumer {
  import opened Wrappers
  import opened Models
  import Service

  datatype Direction = Deduction | Rollback

  datatype Message =
    | Delivered(event: StockEvent, failing: set<nat>)
    | Undecodable
    | ReadFailed

  /** The signed change an item of `qty` makes in this direction. */
  function Shift(dir: Direction, qty: int): int {
    match dir
    case Deduction => -qty
    case Rollback => qty
  }

  function ItemFault(position: nat, failing: set<nat>): Option<Error> {
    if position in failing then Some(DbError("stock update failed")) else None
  }

  /** One service call; its error is logged and the stores stay as they were. */
  function ApplyItem(s: Service.Stores, item: Item, fault: Option<Error>, dir: Direction): Service.Stores {
    var r := match dir
      case Deduction => Service.DeductProductStockByProductID(s, item.productId, item.qty, fault)
      case Rollback => Service.AddProductStockByProductID(s, item.productId, item.qty, fault);
    if r.Success? then r.value else s
  }

  /** Net quantity of the items for product `p` whose update succeeds. */
  function Total(items: seq<Item>, failing: set<nat>, p: int): int
    decreases |items|
  {
    if |items| == 0 then 0
    else
      var k := |items| - 1;
      Total(items[..k], failing, p) + (if k !in failing && items[k].productId == p then items[k].qty else 0)
  }

  /** The inner `for _, product := range event.Products` loop. Each stored
      product's stock moves by the signed total of its succeeding items;
      nothing else in the store or the cache changes. */
  function ApplyItems(s: Service.Stores, items: seq<Item>, failing: set<nat>, dir: Direction): (r: Service.Stores)
    ensures r.cache == s.cache
    ensures r.db.products.Keys == s.db.products.Keys
    ensures r.db.categories == s.db.categories
    ensures r.db.nextProductId == s.db.nextProductId && r.db.nextCategoryId == s.db.nextCategoryId
    ensures forall p :: p in s.db.products ==>
      r.db.products[p] == s.db.products[p].(stock := s.db.products[p].stock + Shift(dir, Total(items, failing, p)))
    decreases |items|
  {
    if |items| == 0 then s
    else
      var k := |items| - 1;
      ApplyItem(ApplyItems(s, items[..k], failing, dir), items[k], ItemFault(k, failing), dir)
  }

  // ---------------------------------------------------------------------------
  // Properties of one event
  // ---------------------------------------------------------------------------

  lemma {:induction false} TotalOfUnmentioned(items: seq<Item>, failing: set<nat>, p: int)
    requires forall i :: 0 <= i < |items| ==> items[i].productId != p
    ensures Total(items, failing, p) == 0
    decreases |items|
  {
    if |items| > 0 {
      TotalOfUnmentioned(items[..|items| - 1], failing, p);
    }
  }

  /** A product that no item names keeps its whole record. */
  lemma UntouchedProductUnchanged(s: Service.Stores, items: seq<Item>, failing: set<nat>, dir: Direction, p: int)
    requires p in s.db.products
    requires forall i :: 0 <= i < |items| ==> items[i].productId != p
    ensures ApplyItems(s, items, failing, dir).db.products[p] == s.db.products[p]
  {
    TotalOfUnmentioned(items, failing, p);
  }

  /** The items that get applied, in order. */
  function Succeeding(items: seq<Item>, failing: set<nat>): seq<Item>
    decreases |items|
  {
    if |items| == 0 then []
    else
      var k := |items| - 1;
      Succeeding(items[..k], failing) + (if k in failing then [] else [items[k]])
  }

  /** A failing item only loses its own update: the event has the effect of
      its succeeding items, applied in order with nothing failing. */
  lemma {:induction false} FailuresAreIsolated(s: Service.Stores, items: seq<Item>, failing: set<nat>, dir: Direction)
    ensures ApplyItems(s, items, failing, dir) == ApplyItems(s, Succeeding(items, failing), {}, dir)
    decreases |items|
  {
    if |items| > 0 {
      var k := |items| - 1;
      var prefix := Succeeding(items[..k], failing);
      var before := ApplyItems(s, items[..k], failing, dir);
      FailuresAreIsolated(s, items[..k], failing, dir);
      assert before == ApplyItems(s, prefix, {}, dir);
      if k in failing {
        assert Succeeding(items, failing) == prefix;
        assert ApplyItems(s, items, failing, dir) == before;
      } else {
        var q := prefix + [items[k]];
        assert Succeeding(items, failing) == q;
        assert q[..|q| - 1] == prefix;
        assert ApplyItems(s, q, {}, dir) == ApplyItem(ApplyItems(s, prefix, {}, dir), items[k], None, dir);
        assert ApplyItems(s, items, failing, dir) == ApplyItem(before, items[k], None, dir);
      }
    }
  }

  /** A deduction event followed by a rollback event with the same items, in
      which the same items fail, leaves the stores exactly as they were. */
  lemma DeductionThenRollbackNetZero(s: Service.Stores, items: seq<Item>, failing: set<nat>)
    ensures ApplyItems(ApplyItems(s, items, failing, Deduction), items, failing, Rollback) == s
  {
    var d := ApplyItems(s, items, failing, Deduction);
    var r := ApplyItems(d, items, failing, Rollback);
    forall p | p in s.db.products
      ensures r.db.products[p] == s.db.products[p]
    {
      assert d.db.products[p] == s.db.products[p].(stock := s.db.products[p].stock - Total(items, failing, p));
    }
    assert r.db.products == s.db.products;
    assert r.db == s.db;
  }

  /** Redelivering a deduction event deducts a second time: the consumer is
      not idempotent, and any product with a non-zero total ends up different
      from a single delivery. */
  lemma RedeliveryAppliesTwice(s: Service.Stores, items: seq<Item>, failing: set<nat>, p: int)
    requires p in s.db.products
    ensures var once := ApplyItems(s, items, failing, Deduction);
            var twice := ApplyItems(once, items, failing, Deduction);
            && twice.db.products[p].stock == s.db.products[p].stock - 2 * Total(items, failing, p)
            && (Total(items, failing, p) != 0 ==> twice != once)
  {
  }

  // ---------------------------------------------------------------------------
  // The read loop over a stream of messages
  // ---------------------------------------------------------------------------

  function Handle(s: Service.Stores, m: Message, dir: Direction): Service.Stores {
    match m
    case Delivered(e, failing) => ApplyItems(s, e.products, failing, dir)
    case Undecodable => s
    case ReadFailed => s
  }

  /** Net succeeding quantity for `p` over every delivered message. */
  function StreamTotal(msgs: seq<Message>, p: int): int
    decreases |msgs|
  {
    if |msgs| == 0 then 0
    else
      var m := msgs[|msgs| - 1];
      StreamTotal(msgs[..|msgs| - 1], p) + (if m.Delivered? then Total(m.event.products, m.failing, p) else 0)
  }

  /** The `for { ... }` read loop over the messages delivered so far. */
  function Consume(s: Service.Stores, msgs: seq<Message>, dir: Direction): (r: Service.Stores)
    ensures r.cache == s.cache
    ensures r.db.products.Keys == s.db.products.Keys
    ensures r.db.categories == s.db.categories
    ensures r.db.nextProductId == s.db.nextProductId && r.db.nextCategoryId == s.db.nextCategoryId
    ensures forall p :: p in s.db.products ==>
      r.db.products[p] == s.db.products[p].(stock := s.db.products[p].stock + Shift(dir, StreamTotal(msgs, p)))
    decreases |msgs|
  {
    if |msgs| == 0 then s
    else Handle(Consume(s, msgs[..|msgs| - 1], dir), msgs[|msgs| - 1], dir)
  }

  lemma {:induction false} ConsumeAppend(s: Service.Stores, a: seq<Message>, b: seq<Message>, dir: Direction)
    ensures Consume(s, a + b, dir) == Consume(Consume(s, a, dir), b, dir)
    decreases |b|
  {
    if |b| == 0 {
      assert a + b == a;
    } else {
      var b' := b[..|b| - 1];
      assert (a + b)[..|a + b| - 1] == a + b';
      ConsumeAppend(s, a, b', dir);
    }
  }

  /** A read error or an undecodable message changes nothing, and the
      messages after it are processed as if it had not been there. */
  lemma BadMessageSkipped(s: Service.Stores, before: seq<Message>, m: Message, after: seq<Message>, dir: Direction)
    requires !m.Delivered?
    ensures Consume(s, before + [m] + after, dir) == Consume(s, before + after, dir)
  {
    ConsumeAppend(s, before + [m], after, dir);
    ConsumeAppend(s, before, [m], dir);
    ConsumeAppend(s, before, after, dir);
    assert Consume(s, before + [m], dir) == Consume(Consume(s, before, dir), [m], dir);
  }

  /** Every item of every delivered message, in delivery order: the calls the loop makes. */
  function Calls(msgs: seq<Message>): seq<Item>
    decreases |msgs|
  {
    if |msgs| == 0 then []
    else
      var m := msgs[|msgs| - 1];
      Calls(msgs[..|msgs| - 1]) + (if m.Delivered? then m.event.products else [])
  }

  /** Runs a consumer over the messages, one message and then one item at a
      time, recording each service call as it makes it. */
  method Run(s: Service.Stores, msgs: seq<Message>, dir: Direction) returns (r: Service.Stores, calls: seq<Item>)
    ensures calls == Calls(msgs)
    ensures r == Consume(s, msgs, dir)
    ensures r.cache == s.cache && r.db.products.Keys == s.db.products.Keys
    ensures forall p :: p in s.db.products ==>
      r.db.products[p] == s.db.products[p].(stock := s.db.products[p].stock + Shift(dir, StreamTotal(msgs, p)))
  {
    r := s;
    calls := [];
    var i := 0;
    while i < |msgs|
      invariant 0 <= i <= |msgs|
      invariant r == Consume(s, msgs[..i], dir)
      invariant calls == Calls(msgs[..i])
    {
      var m := msgs[i];
      if m.Delivered? {
        var items := m.event.products;
        var j := 0;
        var t := r;
        while j < |items|
          invariant 0 <= j <= |items|
          invariant t == ApplyItems(r, items[..j], m.failing, dir)
          invariant calls == Calls(msgs[..i]) + items[..j]
        {
          assert items[..j + 1][..j] == items[..j];
          assert items[..j + 1] == items[..j] + [items[j]];
          t := ApplyItem(t, items[j], ItemFault(j, m.failing), dir);
          calls := calls + [items[j]];
          j := j + 1;
        }
        assert items[..j] == items;
        r := t;
      }
      assert msgs[..i + 1][..i] == msgs[..i];
      i := i + 1;
    }
    assert msgs[..i] == msgs;
  }
}

=== FILE: database.dfy ===
/** The relational side of ProductRepository (cmd/product/repository/database.go)
    over an immutable snapshot of the `product` and `product_category` tables.

    A failure of the store itself (connection lost, statement rejected) cannot
    be predicted from the data, so every operation takes it as a `fault`
    parameter: `Some(e)` means the client returned `e`. */
module Database {
  import opened Wrappers
  import opened GoInt
  import opened Models

  /** A value of a table's id sequence; these start at 1 and only grow. */
  type SequenceValue = x: int | x >= 1 witness 1

  /** Rows keyed by primary key, plus the next value of each table's id sequence. */
  datatype Db = Db(
    products: map<int, Product>,
    categories: map<int, ProductCategory>,
    nextProductId: SequenceValue,
    nextCategoryId: SequenceValue)

  /** Every row sits under its own id; ids, stock and category references fit
      their Go types. */
  ghost predicate Valid(db: Db) {
    && (forall k :: k in db.products ==> db.products[k].id == k && ValidProduct(db.products[k]))
    && (forall k :: k in db.categories ==> db.categories[k].id == k && ValidCategory(db.categories[k]))
  }

  // ---------------------------------------------------------------------------
  // Lookups: a missing row is the zero-valued record, not an error
  // ---------------------------------------------------------------------------

  function FindProductByID(db: Db, productId: int, fault: Option<Error>): (r: Result<Product, Error>)
    ensures fault.Some? ==> r == Failure(fault.value)
    ensures fault.None? ==> r.Success?
    ensures fault.None? && productId !in db.products ==> r.value == ZeroProduct
    ensures r.Success? && IsPresent(r.value) ==> productId in db.products && r.value == db.products[productId]
    ensures Valid(db) && r.Success? ==> (IsPresent(r.value) <==> productId in db.products && productId != 0)
  {
    if fault.Some? then Failure(fault.value)
    else if productId in db.products then Success(db.products[productId])
    else Success(ZeroProduct)
  }

  function FindProductCategoryByID(db: Db, categoryId: int, fault: Option<Error>): (r: Result<ProductCategory, Error>)
    ensures fault.Some? ==> r == Failure(fault.value)
    ensures fault.None? ==> r.Success?
    ensures fault.None? && categoryId !in db.categories ==> r.value == ZeroCategory
    ensures r.Success? && IsPresentCategory(r.value) ==> categoryId in db.categories && r.value == db.categories[categoryId]
    ensures Valid(db) && r.Success? ==> (IsPresentCategory(r.value) <==> categoryId in db.categories && categoryId != 0)
  {
    if fault.Some? then Failure(fault.value)
    else if categoryId in db.categories then Success(db.categories[categoryId])
    else Success(ZeroCategory)
  }

  /** A product row stored under the genuine id 0 reads exactly like an
      absent one: the sentinel cannot tell them apart. */
  lemma IdZeroIndistinguishable(db: Db, p: Product)
    requires p.id == 0
    ensures !IsPresent(FindProductByID(db.(products := db.products[0 := p]), 0, None).value)
    ensures !IsPresent(FindProductByID(db.(products := db.products - {0}), 0, None).value)
  {
  }

  // ---------------------------------------------------------------------------
  // Insert: the new id on success, 0 on error
  // ---------------------------------------------------------------------------

  /** Go's `(int64, error)` pair returned by InsertNewProduct, with the table after the call. */
  datatype Inserted = Inserted(id: int, db: Db, err: Option<Error>)

  /** `Create(product)`: a zero id draws the next sequence value (consumed even
      when the insert then fails), a non-zero id is inserted as given; either
      collides with an existing row as a unique-key violation. */
  function InsertNewProduct(db: Db, p: Product, fault: Option<Error>): (r: Inserted)
    ensures r.err.Some? <==> r.id == 0
    ensures fault.Some? ==> r.err == fault && r.db == db
    ensures r.err.None? ==>
      && r.id !in db.products
      && r.db.products == db.products[r.id := p.(id := r.id)]
      && r.db.categories == db.categories
    ensures r.err.None? && p.id != 0 ==> r.id == p.id
    ensures r.db.products == db.products || r.err.None?
  {
    if fault.Some? then Inserted(0, db, fault)
    else
      var id := if p.id == 0 then db.nextProductId else p.id;
      var db' := if p.id == 0 then db.(nextProductId := db.nextProductId + 1) else db;
      if id in db.products then Inserted(0, db', Some(DbError("duplicate key value violates unique constraint")))
      else Inserted(id, db'.(products := db.products[id := p.(id := id)]), None)
  }

  /** A successful insert keeps the table well formed while the sequence has room. */
  lemma InsertKeepsValid(db: Db, p: Product, fault: Option<Error>)
    requires Valid(db) && ValidProduct(p) && db.nextProductId < MaxInt64
    ensures Valid(InsertNewProduct(db, p, fault).db)
  {
  }

  /** A successful insert is found again under the id it returned, carrying
      that id; a failed one leaves every lookup as it was. */
  lemma InsertThenFind(db: Db, p: Product, fault: Option<Error>, other: int)
    ensures var ins := InsertNewProduct(db, p, fault);
            && (ins.err.None? ==> FindProductByID(ins.db, ins.id, None) == Success(p.(id := ins.id)))
            && (ins.err.Some? ==> FindProductByID(ins.db, other, None) == FindProductByID(db, other, None))
  {
  }

  // ---------------------------------------------------------------------------
  // Stock adjustments
  // ---------------------------------------------------------------------------

  /** Add `delta` to the stock of the row with id `productId`; an absent id
      matches no row, which SQL does not report as an error. */
  function AdjustStock(db: Db, productId: int, delta: int): (db': Db)
    ensures db'.products.Keys == db.products.Keys
    ensures db'.categories == db.categories
    ensures db'.nextProductId == db.nextProductId && db'.nextCategoryId == db.nextCategoryId
    ensures productId in db.products ==>
      db'.products[productId] == db.products[productId].(stock := db.products[productId].stock + delta)
    ensures forall k :: k in db.products && k != productId ==> db'.products[k] == db.products[k]
  {
    if productId in db.products then
      var p := db.products[productId];
      db.(products := db.products[productId := p.(stock := p.stock + delta)])
    else db
  }

  /** `stock = stock - qty` on one row. There is no floor: nothing stops the
      stock from going below zero. */
  function DeductProductStockByProductID(db: Db, productId: int, qty: int, fault: Option<Error>): (r: Result<Db, Error>)
    ensures fault.Some? ==> r == Failure(fault.value)
    ensures fault.None? ==> r.Success?
    ensures r.Success? ==> r.value.products.Keys == db.products.Keys && r.value.categories == db.categories
    ensures r.Success? && productId in db.products ==>
      r.value.products[productId] == db.products[productId].(stock := db.products[productId].stock - qty)
    ensures r.Success? ==> forall k :: k in db.products && k != productId ==> r.value.products[k] == db.products[k]
  {
    if fault.Some? then Failure(fault.value) else Success(AdjustStock(db, productId, -qty))
  }

  /** `stock = stock + qty` on one row. */
  function AddProductStockByProductID(db: Db, productId: int, qty: int, fault: Option<Error>): (r: Result<Db, Error>)
    ensures fault.Some? ==> r == Failure(fault.value)
    ensures fault.None? ==> r.Success?
    ensures r.Success? ==> r.value.products.Keys == db.products.Keys && r.value.categories == db.categories
    ensures r.Success? && productId in db.products ==>
      r.value.products[productId] == db.products[productId].(stock := db.products[productId].stock + qty)
    ensures r.Success? ==> forall k :: k in db.products && k != productId ==> r.value.products[k] == db.products[k]
  {
    if fault.Some? then Failure(fault.value) else Success(AdjustStock(db, productId, qty))
  }

  /** Deducting and then adding back the same quantity restores the table,
      whatever the quantity and whatever the starting stock. */
  lemma DeductThenAddRestores(db: Db, productId: int, qty: int)
    ensures var d := DeductProductStockByProductID(db, productId, qty, None).value;
            AddProductStockByProductID(d, productId, qty, None) == Success(db)
  {
    var d := DeductProductStockByProductID(db, productId, qty, None).value;
    var a := AddProductStockByProductID(d, productId, qty, None).value;
    assert a.products == db.products;
  }

  /** Stock can go negative: a deduction larger than the stock is applied as is. */
  lemma DeductHasNoFloor(db: Db, productId: int, qty: int)
    requires productId in db.products && db.products[productId].stock < qty
    ensures DeductProductStockByProductID(db, productId, qty, None).value.products[productId].stock < 0
  {
  }

  // ---------------------------------------------------------------------------
  // Search: ordering defaults and the page window
  // ---------------------------------------------------------------------------

  /** The parts of SearchProductParameter that the repository defaults and
      turns into ORDER BY / LIMIT / OFFSET (the filters are not modelled). */
  datatype SearchParameter = SearchParameter(page: int, pageSize: int, orderBy: string, sort: string)

  datatype QueryPlan = QueryPlan(orderBy: string, sort: string, limit: int, offset: int)

  const DefaultOrderBy := "product.name"

  predicate IsSortDirection(s: string) {
    s == "ASC" || s == "DESC"
  }

  function SearchPlan(param: SearchParameter): (plan: QueryPlan)
    ensures param.orderBy == "" ==> plan.orderBy == DefaultOrderBy
    ensures param.orderBy != "" ==> plan.orderBy == param.orderBy
    ensures !IsSortDirection(param.sort) ==> plan.sort == "ASC"
    ensures IsSortDirection(param.sort) ==> plan.sort == param.sort
    ensures plan.limit == param.pageSize
    ensures IsInt64(plan.offset)
    ensures IsInt64((param.page - 1) * param.pageSize) ==> plan.offset == (param.page - 1) * param.pageSize
  {
    var orderBy := if param.orderBy == "" then DefaultOrderBy else param.orderBy;
    var sort := if param.sort == "" || (param.sort != "ASC" && param.sort != "DESC") then "ASC" else param.sort;
    QueryPlan(orderBy, sort, param.pageSize, Wrap64((param.page - 1) * param.pageSize))
  }

  /** Feeding a plan's own defaults back in changes nothing. */
  lemma SearchDefaultsIdempotent(param: SearchParameter)
    ensures var plan := SearchPlan(param);
            SearchPlan(param.(orderBy := plan.orderBy, sort := plan.sort)) == plan
  {
  }

  /** Consecutive pages are adjacent windows: page p+1 starts where page p
      ends, so no row is skipped or shown twice (while offsets fit int64). */
  lemma ConsecutivePagesAdjacent(param: SearchParameter)
    requires param.page >= 1 && param.pageSize >= 1
    requires IsInt64(param.page * param.pageSize)
    ensures var here := SearchPlan(param);
            var next := SearchPlan(param.(page := param.page + 1));
            next.offset == here.offset + here.limit && here.offset >= 0
  {
    var p := param.page;
    var n := param.pageSize;
    assert 0 <= (p - 1) * n <= p * n;
  }
}

=== FILE: goint.dfy ===
/** Go's 64-bit integer arithmetic, written out over Dafny's unbounded `int`:
    the `int64` range, two's-complement wrap-around of `+`, `-` and `*`, and
    integer division, which truncates toward zero (Dafny's `/` is Euclidean). */
module GoInt {

  const MinInt64: int := -0x8000_0000_0000_0000
  const MaxInt64: int := 0x7FFF_FFFF_FFFF_FFFF
  const MaxUint64: int := 0xFFFF_FFFF_FFFF_FFFF
  const TwoTo64: int := 0x1_0000_0000_0000_0000

  predicate IsInt64(x: int) {
    MinInt64 <= x <= MaxInt64
  }

  function Abs(x: int): int {
    if x < 0 then -x else x
  }

  /** The int64 value a Go computation yields when the exact result is `x`. */
  function Wrap64(x: int): (r: int)
    ensures IsInt64(r)
    ensures (x - r) % TwoTo64 == 0
    ensures IsInt64(x) ==> r == x
  {
    var m := x % TwoTo64;
    if m > MaxInt64 then m - TwoTo64 else m
  }

  /** The quotient of `a / b` truncated toward zero, as Go computes it before
      narrowing to the operand type; Go's `/` on int64 is `Wrap64(TruncDiv(a, b))`,
      which differs only for `MinInt64 / -1`. */
  function TruncDiv(a: int, b: int): (q: int)
    requires b != 0
    ensures a >= 0 ==> 0 <= a - q * b < Abs(b)
    ensures a < 0 ==> -Abs(b) < a - q * b <= 0
  {
    if a >= 0 then
      if b > 0 then a / b else -(a / -b)
    else
      if b > 0 then -((-a) / b) else (-a) / (-b)
  }
}

=== FILE: handler.dfy ===
/** The decision logic of ProductHandler (cmd/product/handler/handler.go):
    how a request's parameters and the lookup result choose the response, the
    action/id table of the two management endpoints, and the page arithmetic
    of product search. HTTP framing is reduced to a Response value. */
module Handler {
  import opened Wrappers
  import opened GoInt
  import opened Models
  import opened Strconv
  import Database
  import RedisCache
  import Service

  datatype Body =
    | ProductInfo(product: Product)
    | CategoryInfo(category: ProductCategory)
    | SearchResult(page: SearchPage)

  /** 200 with a body, 400 with an error message, 500 carrying the error, or
      the bare 500 that gin's Recovery middleware (installed by gin.Default)
      writes when a handler panics. */
  datatype Response =
    | Ok(body: Body)
    | BadRequest(message: string)
    | InternalServerError(error: Error)
    | RecoveredPanic

  // ---------------------------------------------------------------------------
  // GET product / category by id
  // ---------------------------------------------------------------------------

  /** The response once the lookup has run: an error is a 500, the sentinel
      is "Product Not Exists", any other record is returned. */
  function ProductResponse(result: Result<Product, Error>): (r: Response)
    ensures r.Ok? <==> result.Success? && IsPresent(result.value)
    ensures r.Ok? ==> r.body == ProductInfo(result.value)
    ensures r.InternalServerError? <==> result.Failure?
    ensures r.BadRequest? ==> r.message == "Product Not Exists"
    ensures result.Success? && !IsPresent(result.value) ==> r == BadRequest("Product Not Exists")
    ensures result.Failure? ==> r == InternalServerError(result.error)
  {
    match result
    case Failure(e) => InternalServerError(e)
    case Success(p) => if p.id == 0 then BadRequest("Product Not Exists") else Ok(ProductInfo(p))
  }

  function CategoryResponse(result: Result<ProductCategory, Error>): (r: Response)
    ensures r.Ok? <==> result.Success? && IsPresentCategory(result.value)
    ensures r.Ok? ==> r.body == CategoryInfo(result.value)
    ensures r.InternalServerError? <==> result.Failure?
    ensures r.BadRequest? ==> r.message == "Product Category Not Exists"
    ensures result.Success? && !IsPresentCategory(result.value) ==> r == BadRequest("Product Category Not Exists")
    ensures result.Failure? ==> r == InternalServerError(result.error)
  {
    match result
    case Failure(e) => InternalServerError(e)
    case Success(c) => if c.id == 0 then BadRequest("Product Category Not Exists") else Ok(CategoryInfo(c))
  }

  /** The response and, when the id parsed, the lookup the handler performed
      (whose write-back, if any, is still to run). */
  datatype ProductInfoOutcome = ProductInfoOutcome(response: Response, lookup: Option<Service.Lookup>)

  /** GET /v1/product/:id — ParseInt(id, 10, 64), then the read-through
      lookup. Built on the corrected `Service.GetProductByID`, in which a cache
      error falls through to the store; `GetProductInfoAsWritten` is the
      program as written. */
  function GetProductInfo(idParam: string, s: Service.Stores, now: int, cacheFault: Option<Error>, dbFault: Option<Error>): (r: ProductInfoOutcome)
    ensures !ParseInt(idParam).Parsed? <==> r.lookup.None?
    ensures r.lookup.None? ==> r.response == BadRequest("Invalid Product ID")
    ensures !IsIntegerLiteral(idParam) ==> r.response == BadRequest("Invalid Product ID")
    ensures r.lookup.Some? ==>
      && r.lookup.value == Service.GetProductByID(s, ParseInt(idParam).value, now, cacheFault, dbFault)
      && r.response == ProductResponse(r.lookup.value.result)
  {
    match ParseInt(idParam)
    case Parsed(id) =>
      var lookup := Service.GetProductByID(s, id, now, cacheFault, dbFault);
      ProductInfoOutcome(ProductResponse(lookup.result), Some(lookup))
    case _ => ProductInfoOutcome(BadRequest("Invalid Product ID"), None)
  }

  /** GET /v1/product/:id as written: a cache error makes the service
      dereference a nil product, and gin's Recovery answers 500. */
  function GetProductInfoAsWritten(idParam: string, s: Service.Stores, now: int, cacheFault: Option<Error>, dbFault: Option<Error>): (r: Response)
    ensures !ParseInt(idParam).Parsed? ==> r == BadRequest("Invalid Product ID")
    ensures r.RecoveredPanic? <==>
      ParseInt(idParam).Parsed? && RedisCache.GetProductByIDFromRedis(s.cache, ParseInt(idParam).value, now, cacheFault).Failure?
    ensures !r.RecoveredPanic? ==> r == GetProductInfo(idParam, s, now, cacheFault, dbFault).response
  {
    match ParseInt(idParam)
    case Parsed(id) =>
      (match Service.GetProductByIDAsWritten(s, id, now, cacheFault, dbFault)
       case NilDereference => RecoveredPanic
       case Returned(lookup) =>
         Service.AsWrittenAgreesWithoutCacheError(s, id, now, cacheFault, dbFault);
         ProductResponse(lookup.result))
    case _ => BadRequest("Invalid Product ID")
  }

  /** A stored product requested while Redis fails: the program answers 500,
      the corrected handler serves the stored record. */
  lemma CacheErrorAnswers500(s: Service.Stores, id: int, now: int, e: Error)
    requires Database.Valid(s.db)
    requires id in s.db.products && id != 0
    ensures GetProductInfoAsWritten(FormatInt(id), s, now, Some(e), None) == RecoveredPanic
    ensures GetProductInfo(FormatInt(id), s, now, Some(e), None).response == Ok(ProductInfo(s.db.products[id]))
  {
    ParseFormatRoundTrip(id);
  }

  /** GET /v1/product_category/:id — Atoi(id), then the store lookup. The
      program reuses the product message "Invalid Product ID" here. */
  function GetProductCategoryInfo(idParam: string, s: Service.Stores, dbFault: Option<Error>): (r: Response)
    ensures !Atoi(idParam).Parsed? ==> r == BadRequest("Invalid Product ID")
    ensures Atoi(idParam).Parsed? ==> r == CategoryResponse(Service.GetProductCategoryByID(s, Atoi(idParam).value, dbFault))
    ensures r.Ok? ==> IsIntegerLiteral(idParam)
  {
    match Atoi(idParam)
    case Parsed(id) => CategoryResponse(Service.GetProductCategoryByID(s, id, dbFault))
    case _ => BadRequest("Invalid Product ID")
  }

  /** A stored product requested by its own id, with nothing cached for it,
      comes back with status 200 and the stored record. */
  lemma StoredProductIsServed(s: Service.Stores, id: int, now: int)
    requires Database.Valid(s.db)
    requires id in s.db.products && id != 0
    requires RedisCache.Get(s.cache, RedisCache.ProductKey(id), now).None?
    ensures GetProductInfo(FormatInt(id), s, now, None, None).response == Ok(ProductInfo(s.db.products[id]))
  {
    ParseFormatRoundTrip(id);
  }

  /** A product genuinely stored under id 0 is reported as not existing. */
  lemma IdZeroReportedMissing(s: Service.Stores, p: Product, now: int)
    requires p.id == 0 && 0 in s.db.products && s.db.products[0] == p
    requires RedisCache.Get(s.cache, RedisCache.ProductKey(0), now).None?
    ensures GetProductInfo("0", s, now, None, None).response == BadRequest("Product Not Exists")
  {
    ParseFormatRoundTrip(0);
    assert FormatInt(0) == "0";
  }

  // ---------------------------------------------------------------------------
  // Management: the action / id decision table
  // ---------------------------------------------------------------------------

  /** The request body; `None` when it does not bind as JSON. */
  datatype ManagementParameter = ManagementParameter(action: string, id: int)

  /** A rejection (400 with this message) or the use-case call the handler makes. */
  datatype Decision = Reject(message: string) | Create | Edit | Delete(id: int)

  /** The table both management endpoints apply before calling a use case:
      an add must not carry an id, an edit or a delete must. */
  predicate WellFormedCommand(action: string, id: int) {
    (action == "add" && id == 0) || ((action == "edit" || action == "delete") && id != 0)
  }

  /** POST /v1/product */
  function ProductManagement(param: Option<ManagementParameter>): (d: Decision)
    ensures param.None? ==> d == Reject("Invalid Input")
    ensures param.Some? && param.value.action == "" ==> d == Reject("Missing required parameter")
    ensures param.Some? && param.value.action !in {"", "add", "edit", "delete"} ==> d == Reject("Invalid Action")
    ensures param.Some? && param.value.action in {"add", "edit", "delete"} && !WellFormedCommand(param.value.action, param.value.id)
      ==> d == Reject("Invalid Request")
    ensures !d.Reject? <==> param.Some? && WellFormedCommand(param.value.action, param.value.id)
    ensures d.Create? ==> param.value.action == "add"
    ensures d.Edit? ==> param.value.action == "edit"
    ensures d.Delete? ==> param.value.action == "delete" && d.id == param.value.id
  {
    match param
    case None => Reject("Invalid Input")
    case Some(ManagementParameter(action, id)) =>
      if action == "" then Reject("Missing required parameter")
      else if action == "add" then (if id != 0 then Reject("Invalid Request") else Create)
      else if action == "edit" then (if id == 0 then Reject("Invalid Request") else Edit)
      else if action == "delete" then (if id == 0 then Reject("Invalid Request") else Delete(id))
      else Reject("Invalid Action")
  }

  /** POST /v1/product_category: a separate copy of the same switch. */
  function ProductCategoryManagement(param: Option<ManagementParameter>): (d: Decision)
    ensures !d.Reject? <==> param.Some? && WellFormedCommand(param.value.action, param.value.id)
    ensures d.Delete? ==> param.value.action == "delete" && d.id == param.value.id
  {
    match param
    case None => Reject("Invalid Input")
    case Some(ManagementParameter(action, id)) =>
      if action == "" then Reject("Missing required parameter")
      else
        match action
        case "add" => if id != 0 then Reject("Invalid Request") else Create
        case "edit" => if id == 0 then Reject("Invalid Request") else Edit
        case "delete" => if id == 0 then Reject("Invalid Request") else Delete(id)
        case _ => Reject("Invalid Action")
  }

  /** The two endpoints decide every request the same way. */
  lemma ManagementTablesAgree(param: Option<ManagementParameter>)
    ensures ProductCategoryManagement(param) == ProductManagement(param)
  {
  }

  // ---------------------------------------------------------------------------
  // Search: page parameters, page count and the next-page link
  // ---------------------------------------------------------------------------

  /** `page, _ := strconv.Atoi(c.DefaultQuery("page", "1"))`, likewise pageSize
      with "2". gin's DefaultQuery gives the default only when the key is
      absent; a present value, even an empty one, is parsed as it is. */
  function PageParameters(pageQuery: Option<string>, pageSizeQuery: Option<string>): (r: (int, int))
    ensures pageQuery.None? ==> r.0 == 1
    ensures pageSizeQuery.None? ==> r.1 == 2
    ensures pageQuery.Some? && Atoi(pageQuery.value).Parsed? ==> r.0 == Atoi(pageQuery.value).value
    ensures pageSizeQuery.Some? && Atoi(pageSizeQuery.value).Parsed? ==> r.1 == Atoi(pageSizeQuery.value).value
    ensures pageQuery.Some? && Atoi(pageQuery.value).RangeError? ==> r.0 == Atoi(pageQuery.value).clamped
    ensures pageSizeQuery.Some? && Atoi(pageSizeQuery.value).RangeError? ==> r.1 == Atoi(pageSizeQuery.value).clamped
    ensures pageQuery.Some? && NoLeadingDigit(pageQuery.value) ==> r.0 == 0
    ensures pageSizeQuery.Some? && NoLeadingDigit(pageSizeQuery.value) ==> r.1 == 0
    ensures pageQuery.Some? && Atoi(pageQuery.value).SyntaxError? ==> r.0 == 0
    ensures pageSizeQuery.Some? && Atoi(pageSizeQuery.value).SyntaxError? ==> r.1 == 0
    ensures IsInt64(r.0) && IsInt64(r.1)
  {
    assert ParseInt("1") == Parsed(1) by { ParseFormatRoundTrip(1); }
    assert ParseInt("2") == Parsed(2) by { ParseFormatRoundTrip(2); }
    var page := match pageQuery case Some(v) => v case None => "1";
    var pageSize := match pageSizeQuery case Some(v) => v case None => "2";
    (ValueIgnoringError(Atoi(page)), ValueIgnoringError(Atoi(pageSize)))
  }

  /** Page numbers written into a query with `%d` are read back unchanged. */
  lemma PageParametersRoundTrip(page: int, pageSize: int)
    requires IsInt64(page) && IsInt64(pageSize)
    ensures PageParameters(Some(FormatInt(page)), Some(FormatInt(pageSize))) == (page, pageSize)
  {
    ParseFormatRoundTrip(page);
    ParseFormatRoundTrip(pageSize);
  }

  /** `(totalCount + pageSize - 1) / pageSize` in Go's int: the sum wraps at
      64 bits, the division truncates and its quotient wraps too (only
      `MinInt64 / -1` needs it), and a zero divisor panics (`None`). */
  function TotalPagesAsWritten(totalCount: int, pageSize: int): (r: Option<int>)
    ensures r.None? <==> pageSize == 0
    ensures r.Some? ==> IsInt64(r.value)
  {
    if pageSize == 0 then None else Some(Wrap64(TruncDiv(Wrap64(totalCount + pageSize - 1), pageSize)))
  }

  /** A pageSize query that is not a number parses to 0, and the page count
      then divides by zero. */
  lemma NonNumericPageSizePanics(totalCount: int)
    ensures PageParameters(None, Some("abc")).1 == 0
    ensures TotalPagesAsWritten(totalCount, PageParameters(None, Some("abc")).1).None?
  {
  }

  /** The largest int64 page size makes the numerator wrap: two results are
      reported as -1 pages instead of 1. */
  lemma HugePageSizeWraps()
    ensures TotalPagesAsWritten(2, MaxInt64) == Some(-1)
    ensures TotalPages(2, MaxInt64) == 1
  {
    assert Wrap64(2 + MaxInt64 - 1) == MinInt64;
  }

  /** A negative pageSize query is kept as parsed and does not panic: ten
      rows in pages of -3 are reported as -2 pages, where the corrected
      search uses pages of 2 and reports 5. */
  lemma NegativePageSizeReportsNegativePages()
    ensures PageParameters(None, Some("-3")).1 == -3
    ensures TotalPagesAsWritten(10, PageParameters(None, Some("-3")).1) == Some(-2)
    ensures TotalPages(10, EffectivePageSize(-3)) == 5
  {
    assert "-3"[1..] == "3" && "3"[1..] == "";
    assert DigitsValue(0, "3") == 3;
    assert LiteralValue("-3") == -3;
    assert TruncDiv(6, -3) == -2;
  }

  /** The page size actually used: a size below 1 (absent from the query is
      already 2) falls back to the default of 2. */
  function EffectivePageSize(pageSize: int): (n: int)
    ensures n >= 1
    ensures pageSize >= 1 ==> n == pageSize
  {
    if pageSize >= 1 then pageSize else 2
  }

  /** The number of pages of `pageSize` rows needed for `totalCount` rows:
      the ceiling of the quotient, computed without overflow. */
  function TotalPages(totalCount: nat, pageSize: int): (n: nat)
    requires pageSize >= 1
    ensures n == 0 <==> totalCount == 0
    ensures totalCount <= n * pageSize
    ensures n > 0 ==> (n - 1) * pageSize < totalCount
  {
    var q := totalCount / pageSize;
    var n := if totalCount % pageSize == 0 then q else q + 1;
    assert totalCount == q * pageSize + totalCount % pageSize;
    n
  }

  /** A positive multiple of a positive number is at least that number. */
  lemma MultipleAtLeast(k: int, b: int)
    requires k >= 1 && b >= 1
    ensures k * b >= b
  {
    assert k * b == (k - 1) * b + b;
    assert (k - 1) * b >= 0;
  }

  lemma DivUnique(a: int, b: int, q: int, r: int)
    requires b >= 1 && 0 <= r < b && a == q * b + r
    ensures a / b == q
  {
    var q' := a / b;
    var r' := a % b;
    assert a == q' * b + r';
    assert (q - q') * b == r' - r;
    if q' < q {
      MultipleAtLeast(q - q', b);
    } else if q' > q {
      MultipleAtLeast(q' - q, b);
    }
  }

  /** Where the program does not overflow and the size is positive, its
      formula and the corrected count agree. */
  lemma TotalPagesAgree(totalCount: nat, pageSize: int)
    requires pageSize >= 1 && totalCount + pageSize - 1 <= MaxInt64
    ensures TotalPagesAsWritten(totalCount, pageSize) == Some(TotalPages(totalCount, pageSize))
  {
    var q := totalCount / pageSize;
    var rem := totalCount % pageSize;
    assert totalCount == q * pageSize + rem;
    if rem == 0 {
      DivUnique(totalCount + pageSize - 1, pageSize, q, pageSize - 1);
    } else {
      DivUnique(totalCount + pageSize - 1, pageSize, q + 1, rem - 1);
    }
  }

  datatype PageLink = PageLink(page: int, pageSize: int)

  /** The next-page link: present exactly while the current page is before
      the last one, and it never points past the last page. */
  function NextPage(page: int, pageSize: int, totalPages: int): (r: Option<PageLink>)
    ensures r.Some? <==> page < totalPages
    ensures r.Some? ==> r.value.page == page + 1 && r.value.page <= totalPages && r.value.pageSize == pageSize
  {
    if page < totalPages then Some(PageLink(page + 1, pageSize)) else None
  }

  datatype SearchPage = SearchPage(page: int, pageSize: int, totalCount: nat, totalPages: nat, next: Option<PageLink>)

  /** What the search handler passes down and what it answers. */
  datatype SearchOutcome = SearchOutcome(query: Database.SearchParameter, response: Response)

  /** GET /v1/product/search with the page size made positive. `count` is the
      repository's total match count (or its error); filters and the row data
      are not modelled. */
  function SearchProduct(pageQuery: Option<string>, pageSizeQuery: Option<string>, orderBy: string, sort: string, count: Result<nat, Error>): (r: SearchOutcome)
    ensures r.query.pageSize >= 1
    ensures r.query.pageSize == EffectivePageSize(PageParameters(pageQuery, pageSizeQuery).1)
    ensures r.query.page == PageParameters(pageQuery, pageSizeQuery).0
    ensures r.query.orderBy == orderBy && r.query.sort == sort
    ensures count.Failure? <==> r.response.InternalServerError?
    ensures count.Success? ==> (r.response.Ok? && r.response.body.SearchResult? &&
      var sp := r.response.body.page;
      && sp.totalCount == count.value
      && sp.page == r.query.page
      && sp.pageSize == r.query.pageSize
      && sp.totalPages == TotalPages(count.value, sp.pageSize)
      && (sp.next.Some? ==> sp.next.value == PageLink(sp.page + 1, sp.pageSize))
      && sp.totalCount <= sp.totalPages * sp.pageSize
      && (sp.totalPages > 0 ==> (sp.totalPages - 1) * sp.pageSize < sp.totalCount)
      && (sp.next.Some? <==> sp.page < sp.totalPages))
  {
    var (page, rawSize) := PageParameters(pageQuery, pageSizeQuery);
    var pageSize := EffectivePageSize(rawSize);
    var query := Database.SearchParameter(page, pageSize, orderBy, sort);
    match count
    case Failure(e) => SearchOutcome(query, InternalServerError(e))
    case Success(total) =>
      var totalPages := TotalPages(total, pageSize);
      SearchOutcome(query, Ok(SearchResult(SearchPage(page, pageSize, total, totalPages, NextPage(page, pageSize, totalPages)))))
  }

  /** Following next-page links from page 1 reaches the last page and stops:
      the page after the last one has no link. */
  lemma LastPageHasNoLink(totalCount: nat, pageSize: int)
    requires pageSize >= 1
    ensures NextPage(TotalPages(totalCount, pageSize), pageSize, TotalPages(totalCount, pageSize)).None?
    ensures NextPage(1, pageSize, TotalPages(totalCount, pageSize)).Some? <==> totalCount > pageSize
  {
    var n := TotalPages(totalCount, pageSize);
    if n > 1 {
      MultipleAtLeast(n - 1, pageSize);
    } else if n == 1 {
      assert totalCount <= pageSize;
    }
  }
}

=== FILE: json.dfy ===
/** JSON values, and what a cached string holds.

    The character-level grammar of JSON is not modelled: a cached string is
    either well-formed JSON text, represented by the value it denotes, or it
    is not. */
module Json {

  datatype Value =
    | Null
    | Bool(b: bool)
    | Number(n: int)
    | String(s: string)
    | Array(items: seq<Value>)
    | Object(fields: map<string, Value>)

  datatype Text = WellFormed(value: Value) | Malformed
}

/** `json.Marshal` and `json.Unmarshal` for the two cached records, following
    encoding/json's rules for decoding into a fresh zero-valued struct: a JSON
    `null` (as the whole document or as a field) leaves the zero value, a
    missing key leaves the field as it is, an unknown key is ignored, and a
    value of the wrong JSON type, or a number outside the Go field's range, is
    an error. The adapter that calls Unmarshal discards the half-filled struct
    on error, so an error result carries no record. */
module Codec {
  import opened Wrappers
  import opened GoInt
  import opened Models
  import opened Json

  const IdKey := "id"
  const NameKey := "name"
  const DescriptionKey := "description"
  const PriceKey := "price"
  const StockKey := "stock"
  const CategoryIdKey := "category_id"

  function DecodeInt(f: map<string, Value>, key: string, current: int): (r: Result<int, Error>)
    ensures r.Success? ==> r.value == current || IsInt64(r.value)
    ensures key in f && f[key].Number? && IsInt64(f[key].n) ==> r == Success(f[key].n)
    ensures key in f && !f[key].Null? && !f[key].Number? ==> r.Failure?
  {
    if key !in f then Success(current)
    else match f[key]
      case Null => Success(current)
      case Number(n) =>
        if IsInt64(n) then Success(n) else Failure(JsonError("number overflows Go int"))
      case _ => Failure(JsonError("cannot unmarshal into Go int"))
  }

  function DecodeNumber(f: map<string, Value>, key: string, current: int): (r: Result<int, Error>)
    ensures key in f && f[key].Number? ==> r == Success(f[key].n)
    ensures key in f && !f[key].Null? && !f[key].Number? ==> r.Failure?
  {
    if key !in f then Success(current)
    else match f[key]
      case Null => Success(current)
      case Number(n) => Success(n)
      case _ => Failure(JsonError("cannot unmarshal into Go float64"))
  }

  function DecodeString(f: map<string, Value>, key: string, current: string): (r: Result<string, Error>)
    ensures key in f && f[key].String? ==> r == Success(f[key].s)
    ensures key in f && !f[key].Null? && !f[key].String? ==> r.Failure?
  {
    if key !in f then Success(current)
    else match f[key]
      case Null => Success(current)
      case String(s) => Success(s)
      case _ => Failure(JsonError("cannot unmarshal into Go string"))
  }

  /** `json.Marshal(product)`: an object with one member per field; what it
      writes decodes back to the same record. */
  function MarshalProduct(p: Product): (v: Value)
    ensures v.Object? && v.fields.Keys == {IdKey, NameKey, DescriptionKey, PriceKey, StockKey, CategoryIdKey}
    ensures ValidProduct(p) ==> UnmarshalProduct(WellFormed(v)) == Success(p)
  {
    Object(map[
      IdKey := Number(p.id),
      NameKey := String(p.name),
      DescriptionKey := String(p.description),
      PriceKey := Number(p.price),
      StockKey := Number(p.stock),
      CategoryIdKey := Number(p.categoryId)])
  }

  function MarshalCategory(c: ProductCategory): (v: Value)
    ensures v.Object? && v.fields.Keys == {IdKey, NameKey}
    ensures ValidCategory(c) ==> UnmarshalCategory(WellFormed(v)) == Success(c)
  {
    Object(map[IdKey := Number(c.id), NameKey := String(c.name)])
  }

  function UnmarshalProduct(t: Text): (r: Result<Product, Error>)
    ensures t.Malformed? ==> r.Failure?
    ensures t.WellFormed? && !t.value.Null? && !t.value.Object? ==> r.Failure?
    ensures t == WellFormed(Null) ==> r == Success(ZeroProduct)
    ensures r.Success? ==> ValidProduct(r.value)
  {
    match t
    case Malformed => Failure(JsonError("invalid character"))
    case WellFormed(Null) => Success(ZeroProduct)
    case WellFormed(Object(f)) =>
      var id :- DecodeInt(f, IdKey, 0);
      var name :- DecodeString(f, NameKey, "");
      var description :- DecodeString(f, DescriptionKey, "");
      var price :- DecodeNumber(f, PriceKey, 0);
      var stock :- DecodeInt(f, StockKey, 0);
      var categoryId :- DecodeInt(f, CategoryIdKey, 0);
      Success(Product(id, name, description, price, stock, categoryId))
    case WellFormed(_) => Failure(JsonError("cannot unmarshal into Go value of type models.Product"))
  }

  function UnmarshalCategory(t: Text): (r: Result<ProductCategory, Error>)
    ensures t.Malformed? ==> r.Failure?
    ensures t.WellFormed? && !t.value.Null? && !t.value.Object? ==> r.Failure?
    ensures t == WellFormed(Null) ==> r == Success(ZeroCategory)
    ensures r.Success? ==> ValidCategory(r.value)
  {
    match t
    case Malformed => Failure(JsonError("invalid character"))
    case WellFormed(Null) => Success(ZeroCategory)
    case WellFormed(Object(f)) =>
      var id :- DecodeInt(f, IdKey, 0);
      var name :- DecodeString(f, NameKey, "");
      Success(ProductCategory(id, name))
    case WellFormed(_) => Failure(JsonError("cannot unmarshal into Go value of type models.ProductCategory"))
  }

  /** Decoding what Marshal wrote gives back the same product. */
  lemma ProductRoundTrip(p: Product)
    requires ValidProduct(p)
    ensures UnmarshalProduct(WellFormed(MarshalProduct(p))) == Success(p)
  {
  }

  lemma CategoryRoundTrip(c: ProductCategory)
    requires ValidCategory(c)
    ensures UnmarshalCategory(WellFormed(MarshalCategory(c))) == Success(c)
  {
  }

  /** A field of the wrong JSON type spoils the whole record, whatever the
      other fields hold: no partially decoded product is ever returned. */
  lemma ProductFieldTypeMismatch(f: map<string, Value>, key: string)
    requires key in {IdKey, StockKey, CategoryIdKey, PriceKey}
    requires key in f && !f[key].Null? && !f[key].Number?
    ensures UnmarshalProduct(WellFormed(Object(f))).Failure?
  {
  }
}

=== FILE: models.dfy ===
/** The records the service stores and the errors it passes around.

    A Product or ProductCategory whose `id` is 0 is the "not found" sentinel:
    the repository and the cache adapter both return the zero-valued record
    instead of an error when nothing is stored, and every caller tests
    `id != 0` to tell a record from an absence. */
module Models {
  import opened GoInt

  /** `price` is a float64 in the program; it is carried as an opaque number
      here and never computed with. */
  datatype Product = Product(
    id: int,
    name: string,
    description: string,
    price: int,
    stock: int,
    categoryId: int)

  datatype ProductCategory = ProductCategory(id: int, name: string)

  const ZeroProduct: Product := Product(0, "", "", 0, 0, 0)
  const ZeroCategory: ProductCategory := ProductCategory(0, "")

  /** The sentinel test every caller applies. */
  predicate IsPresent(p: Product) {
    p.id != 0
  }

  predicate IsPresentCategory(c: ProductCategory) {
    c.id != 0
  }

  /** The integer fields fit the Go types they are declared with (int64 / int). */
  predicate ValidProduct(p: Product) {
    IsInt64(p.id) && IsInt64(p.stock) && IsInt64(p.categoryId)
  }

  predicate ValidCategory(c: ProductCategory) {
    IsInt64(c.id)
  }

  /** Errors the program passes back up: from the relational store, from the
      cache client, and from JSON decoding. Only their origin matters here. */
  datatype Error =
    | DbError(reason: string)
    | CacheError(reason: string)
    | JsonError(reason: string)

  /** One line of a stock-adjustment event: `{"product_id": .., "qty": ..}`. */
  datatype Item = Item(productId: int, qty: int)

  /** `{"products": [...]}`, the payload of both the deduction and the rollback topic. */
  datatype StockEvent = StockEvent(products: seq<Item>)
}

=== FILE: redis.dfy ===
/** The cache side of ProductRepository (cmd/product/repository/redis.go): JSON
    snapshots of products and categories under `product:<id>` and
    `product_category:<id>`, written with SETEX and read with GET.

    Time is an integer clock in seconds; an entry written at `now` with time
    to live `ttl` is live while the clock is below `now + ttl`. A failure of
    the Redis client other than a miss is a `fault` parameter. */
module RedisCache {
  import opened Wrappers
  import opened Models
  import opened GoInt
  import opened Strconv
  import Json
  import Codec

  datatype Entry = Entry(text: Json.Text, expiresAt: int)

  type Cache = map<string, Entry>

  /** 10 * time.Minute for products, 1 * time.Minute for categories. */
  const ProductTtl: int := 600
  const CategoryTtl: int := 60

  const ProductKeyPrefix: string := "product:"
  const CategoryKeyPrefix: string := "product_category:"

  /** `fmt.Sprintf("product:%d", productID)`: the prefix followed by text
      from which the id reads back. */
  function ProductKey(productId: int): (k: string)
    ensures |k| > |ProductKeyPrefix| && k[..|ProductKeyPrefix|] == ProductKeyPrefix
    ensures IsInt64(productId) ==> ParseInt(k[|ProductKeyPrefix|..]) == Parsed(productId)
  {
    var k := ProductKeyPrefix + FormatInt(productId);
    assert k[|ProductKeyPrefix|..] == FormatInt(productId);
    assert IsInt64(productId) ==> ParseInt(FormatInt(productId)) == Parsed(productId) by {
      if IsInt64(productId) { ParseFormatRoundTrip(productId); }
    }
    k
  }

  /** `fmt.Sprintf("product_category:%d", productCategoryID)` */
  function CategoryKey(categoryId: int): (k: string)
    ensures |k| > |CategoryKeyPrefix| && k[..|CategoryKeyPrefix|] == CategoryKeyPrefix
    ensures IsInt64(categoryId) ==> ParseInt(k[|CategoryKeyPrefix|..]) == Parsed(categoryId)
  {
    var k := CategoryKeyPrefix + FormatInt(categoryId);
    assert k[|CategoryKeyPrefix|..] == FormatInt(categoryId);
    assert IsInt64(categoryId) ==> ParseInt(FormatInt(categoryId)) == Parsed(categoryId) by {
      if IsInt64(categoryId) { ParseFormatRoundTrip(categoryId); }
    }
    k
  }

  /** GET: the stored text if the key holds a live entry; `None` is redis.Nil. */
  function Get(c: Cache, key: string, now: int): (r: Option<Json.Text>)
    ensures r.Some? <==> key in c && now < c[key].expiresAt
    ensures r.Some? ==> r.value == c[key].text
  {
    if key in c && now < c[key].expiresAt then Some(c[key].text) else None
  }

  /** SETEX: overwrite the key, live for `ttl` seconds from `now`. */
  function SetEx(c: Cache, key: string, text: Json.Text, ttl: int, now: int): (c': Cache)
    ensures key in c' && c'[key] == Entry(text, now + ttl)
    ensures forall k :: k != key ==> (k in c' <==> k in c)
    ensures forall k :: k in c && k != key ==> c'[k] == c[k]
  {
    c[key := Entry(text, now + ttl)]
  }

  // ---------------------------------------------------------------------------
  // Keys
  // ---------------------------------------------------------------------------

  lemma ProductKeyInjective(a: int, b: int)
    requires ProductKey(a) == ProductKey(b)
    ensures a == b
  {
    assert FormatInt(a) == ProductKey(a)[|ProductKeyPrefix|..];
    assert FormatInt(b) == ProductKey(b)[|ProductKeyPrefix|..];
    FormatIntInjective(a, b);
  }

  lemma CategoryKeyInjective(a: int, b: int)
    requires CategoryKey(a) == CategoryKey(b)
    ensures a == b
  {
    assert FormatInt(a) == CategoryKey(a)[|CategoryKeyPrefix|..];
    assert FormatInt(b) == CategoryKey(b)[|CategoryKeyPrefix|..];
    FormatIntInjective(a, b);
  }

  /** The two key spaces are disjoint: the prefixes already differ at their
      eighth character (':' against '_'). */
  lemma KeysNeverCollide(productId: int, categoryId: int)
    ensures ProductKey(productId) != CategoryKey(categoryId)
  {
    assert ProductKey(productId)[7] == ':';
    assert CategoryKey(categoryId)[7] == '_';
  }

  // ---------------------------------------------------------------------------
  // Reads: a miss is the zero-valued record, not an error
  // ---------------------------------------------------------------------------

  function GetProductByIDFromRedis(c: Cache, productId: int, now: int, fault: Option<Error>): (r: Result<Product, Error>)
    ensures fault.Some? ==> r == Failure(fault.value)
    ensures fault.None? && Get(c, ProductKey(productId), now).None? ==> r == Success(ZeroProduct)
    ensures fault.None? && Get(c, ProductKey(productId), now).Some? ==>
      r == Codec.UnmarshalProduct(Get(c, ProductKey(productId), now).value)
    ensures r.Success? ==> ValidProduct(r.value)
  {
    if fault.Some? then Failure(fault.value)
    else match Get(c, ProductKey(productId), now)
      case None => Success(ZeroProduct)
      case Some(text) => Codec.UnmarshalProduct(text)
  }

  function GetProductCategoryByIDFromRedis(c: Cache, categoryId: int, now: int, fault: Option<Error>): (r: Result<ProductCategory, Error>)
    ensures fault.Some? ==> r == Failure(fault.value)
    ensures fault.None? && Get(c, CategoryKey(categoryId), now).None? ==> r == Success(ZeroCategory)
    ensures fault.None? && Get(c, CategoryKey(categoryId), now).Some? ==>
      r == Codec.UnmarshalCategory(Get(c, CategoryKey(categoryId), now).value)
    ensures r.Success? ==> ValidCategory(r.value)
  {
    if fault.Some? then Failure(fault.value)
    else match Get(c, CategoryKey(categoryId), now)
      case None => Success(ZeroCategory)
      case Some(text) => Codec.UnmarshalCategory(text)
  }

  /** A live entry holding text that is not JSON is an error, never a record. */
  lemma UndecodableEntryIsError(c: Cache, productId: int, now: int)
    requires Get(c, ProductKey(productId), now) == Some(Json.Malformed)
    ensures GetProductByIDFromRedis(c, productId, now, None).Failure?
  {
  }

  // ---------------------------------------------------------------------------
  // Writes: the key comes from the id argument, not from the record
  // ---------------------------------------------------------------------------

  /** Marshal the product and SETEX it under `product:<productId>` for ten
      minutes. Marshalling cannot fail for the modelled field types
      (price is an int, see ## Left out in README.md). */
  function SetProductByID(c: Cache, p: Product, productId: int, now: int, fault: Option<Error>): (r: Result<Cache, Error>)
    ensures fault.Some? ==> r == Failure(fault.value)
    ensures fault.None? ==> r.Success?
    ensures r.Success? ==> forall k :: k in c && k != ProductKey(productId) ==> k in r.value && r.value[k] == c[k]
    ensures r.Success? ==> r.value.Keys == c.Keys + {ProductKey(productId)}
  {
    if fault.Some? then Failure(fault.value)
    else Success(SetEx(c, ProductKey(productId), Json.WellFormed(Codec.MarshalProduct(p)), ProductTtl, now))
  }

  function SetProductCategoryByID(c: Cache, pc: ProductCategory, categoryId: int, now: int, fault: Option<Error>): (r: Result<Cache, Error>)
    ensures fault.Some? ==> r == Failure(fault.value)
    ensures fault.None? ==> r.Success?
    ensures r.Success? ==> forall k :: k in c && k != CategoryKey(categoryId) ==> k in r.value && r.value[k] == c[k]
    ensures r.Success? ==> r.value.Keys == c.Keys + {CategoryKey(categoryId)}
  {
    if fault.Some? then Failure(fault.value)
    else Success(SetEx(c, CategoryKey(categoryId), Json.WellFormed(Codec.MarshalCategory(pc)), CategoryTtl, now))
  }

  /** Within ten minutes of a write, reading the same id gives back the
      written product, whatever id the record itself carries. */
  lemma SetThenGetProduct(c: Cache, p: Product, productId: int, now: int, t: int)
    requires ValidProduct(p)
    requires now <= t < now + ProductTtl
    ensures var c' := SetProductByID(c, p, productId, now, None).value;
            GetProductByIDFromRedis(c', productId, t, None) == Success(p)
  {
    Codec.ProductRoundTrip(p);
  }

  /** From ten minutes after the write on, the entry is gone and a read is a miss. */
  lemma ProductEntryExpires(c: Cache, p: Product, productId: int, now: int, t: int)
    requires t >= now + ProductTtl
    ensures var c' := SetProductByID(c, p, productId, now, None).value;
            GetProductByIDFromRedis(c', productId, t, None) == Success(ZeroProduct)
  {
  }

  lemma SetThenGetCategory(c: Cache, pc: ProductCategory, categoryId: int, now: int, t: int)
    requires ValidCategory(pc)
    requires now <= t < now + CategoryTtl
    ensures var c' := SetProductCategoryByID(c, pc, categoryId, now, None).value;
            GetProductCategoryByIDFromRedis(c', categoryId, t, None) == Success(pc)
  {
    Codec.CategoryRoundTrip(pc);
  }

  /** Category entries live one minute. */
  lemma CategoryEntryExpires(c: Cache, pc: ProductCategory, categoryId: int, now: int, t: int)
    requires t >= now + CategoryTtl
    ensures var c' := SetProductCategoryByID(c, pc, categoryId, now, None).value;
            GetProductCategoryByIDFromRedis(c', categoryId, t, None) == Success(ZeroCategory)
  {
  }

  /** Writing product `productId` leaves the cached view of every other product
      id, and of every category, as it was; in particular a record whose own id
      differs from the argument is not visible under its own id. */
  lemma SetProductTouchesOneKey(c: Cache, p: Product, productId: int, now: int, other: int, categoryId: int, t: int)
    requires other != productId
    ensures var c' := SetProductByID(c, p, productId, now, None).value;
            && GetProductByIDFromRedis(c', other, t, None) == GetProductByIDFromRedis(c, other, t, None)
            && GetProductCategoryByIDFromRedis(c', categoryId, t, None) == GetProductCategoryByIDFromRedis(c, categoryId, t, None)
  {
    if ProductKey(other) == ProductKey(productId) {
      ProductKeyInjective(other, productId);
    }
    KeysNeverCollide(productId, categoryId);
  }
}

=== FILE: service.dfy ===
/** ProductService (cmd/product/service/service.go): the read-through product
    lookup, the cache-free category lookup, and the stock operations the
    consumers call.

    The program starts a goroutine to write a freshly loaded product back to
    the cache. Here the lookup returns that write-back as a value, and
    `Populate` is the separate step that performs it, so any interleaving of
    the write-back with later reads can be stated by choosing when to call it. */
module Service {
  import opened Wrappers
  import opened Models
  import Database
  import RedisCache
  import Codec

  datatype Stores = Stores(db: Database.Db, cache: RedisCache.Cache)

  /** `SetProductByID(ctx, product, productID)` as scheduled by the lookup. */
  datatype WriteBack = WriteBack(product: Product, productId: int)

  /** What a lookup hands back, whether it had to read the store, and the
      write-back it scheduled, if any. */
  datatype Lookup = Lookup(result: Result<Product, Error>, readDb: bool, writeBack: Option<WriteBack>)

  /** A cache read that counts as a hit: it succeeded with a non-sentinel record. */
  predicate IsCacheHit(cached: Result<Product, Error>) {
    cached.Success? && IsPresent(cached.value)
  }

  /** The store half of the lookup: return what the store returned (sentinel
      included) and schedule writing exactly that back; on a store error,
      return it and schedule nothing. */
  function LoadFromDb(db: Database.Db, productId: int, dbFault: Option<Error>): (r: Lookup)
    ensures r.readDb
    ensures r.result == Database.FindProductByID(db, productId, dbFault)
    ensures r.writeBack.Some? <==> r.result.Success?
    ensures r.writeBack.Some? ==> r.writeBack.value == WriteBack(r.result.value, productId)
  {
    match Database.FindProductByID(db, productId, dbFault)
    case Failure(e) => Lookup(Failure(e), true, None)
    case Success(p) => Lookup(Success(p), true, Some(WriteBack(p, productId)))
  }

  // ---------------------------------------------------------------------------
  // GetProductByID as written: a cache error dereferences a nil pointer
  // ---------------------------------------------------------------------------

  datatype AsWritten = Returned(lookup: Lookup) | NilDereference

  /** The cache adapter returns a nil product together with its error; the
      service logs the error and then reads `product.ID` regardless. */
  function GetProductByIDAsWritten(s: Stores, productId: int, now: int, cacheFault: Option<Error>, dbFault: Option<Error>): (r: AsWritten)
    ensures r.NilDereference? <==> RedisCache.GetProductByIDFromRedis(s.cache, productId, now, cacheFault).Failure?
  {
    match RedisCache.GetProductByIDFromRedis(s.cache, productId, now, cacheFault)
    case Failure(_) => NilDereference
    case Success(p) =>
      if IsPresent(p) then Returned(Lookup(Success(p), false, None))
      else Returned(LoadFromDb(s.db, productId, dbFault))
  }

  /** Any failing cache read — client error or undecodable entry — panics. */
  lemma CacheErrorPanics(s: Stores, productId: int, now: int, e: Error, dbFault: Option<Error>)
    ensures GetProductByIDAsWritten(s, productId, now, Some(e), dbFault) == NilDereference
  {
  }

  // ---------------------------------------------------------------------------
  // GetProductByID with the cache error treated as a miss
  // ---------------------------------------------------------------------------

  /** Cache first; a hit is returned without touching the store. Anything
      else — a miss, the sentinel, a cache error — falls through to the store. */
  function GetProductByID(s: Stores, productId: int, now: int, cacheFault: Option<Error>, dbFault: Option<Error>): (r: Lookup)
    ensures var cached := RedisCache.GetProductByIDFromRedis(s.cache, productId, now, cacheFault);
            && (!r.readDb <==> IsCacheHit(cached))
            && (!r.readDb ==> r.result == cached && r.writeBack.None?)
    ensures r.readDb ==> r == LoadFromDb(s.db, productId, dbFault)
    ensures r.result.Failure? ==> r.readDb && dbFault == Some(r.result.error)
    ensures r.writeBack.Some? ==> r.result == Success(r.writeBack.value.product) && r.writeBack.value.productId == productId
  {
    var cached := RedisCache.GetProductByIDFromRedis(s.cache, productId, now, cacheFault);
    if IsCacheHit(cached) then Lookup(cached, false, None)
    else LoadFromDb(s.db, productId, dbFault)
  }

  /** The corrected lookup agrees with the code wherever the code does not panic. */
  lemma AsWrittenAgreesWithoutCacheError(s: Stores, productId: int, now: int, cacheFault: Option<Error>, dbFault: Option<Error>)
    requires RedisCache.GetProductByIDFromRedis(s.cache, productId, now, cacheFault).Success?
    ensures GetProductByIDAsWritten(s, productId, now, cacheFault, dbFault) == Returned(GetProductByID(s, productId, now, cacheFault, dbFault))
  {
  }

  /** A cache error behaves exactly like an empty cache. */
  lemma CacheErrorIsSoft(s: Stores, productId: int, now: int, e: Error, dbFault: Option<Error>)
    ensures GetProductByID(s, productId, now, Some(e), dbFault) == GetProductByID(s.(cache := map[]), productId, now, None, dbFault)
  {
  }

  /** The detached write-back: a failed SETEX is logged and dropped, leaving
      the cache as it was. */
  function Populate(cache: RedisCache.Cache, wb: WriteBack, now: int, fault: Option<Error>): (c': RedisCache.Cache)
    ensures fault.Some? ==> c' == cache
    ensures fault.None? ==> Success(c') == RedisCache.SetProductByID(cache, wb.product, wb.productId, now, None)
  {
    match RedisCache.SetProductByID(cache, wb.product, wb.productId, now, fault)
    case Success(c) => c
    case Failure(_) => cache
  }

  // ---------------------------------------------------------------------------
  // Read-through properties
  // ---------------------------------------------------------------------------

  /** A product that is stored but not cached is loaded from the store; once
      its write-back has run, every read within the ten-minute window is a
      hit that returns the same record without reading the store — even if
      the store has changed in the meantime (the staleness window). */
  lemma ReadThroughThenHit(s: Stores, productId: int, now: int, db2: Database.Db, t: int, dbFault2: Option<Error>)
    requires Database.Valid(s.db)
    requires productId in s.db.products && productId != 0
    requires RedisCache.Get(s.cache, RedisCache.ProductKey(productId), now).None?
    requires now <= t < now + RedisCache.ProductTtl
    ensures var first := GetProductByID(s, productId, now, None, None);
            && first.result == Success(s.db.products[productId])
            && first.writeBack == Some(WriteBack(s.db.products[productId], productId))
            && var c' := Populate(s.cache, first.writeBack.value, now, None);
               GetProductByID(Stores(db2, c'), productId, t, None, dbFault2)
                 == Lookup(Success(s.db.products[productId]), false, None)
  {
    var p := s.db.products[productId];
    var c' := Populate(s.cache, WriteBack(p, productId), now, None);
    RedisCache.SetThenGetProduct(s.cache, p, productId, now, t);
  }

  /** A product the store does not hold is written back as the sentinel, and
      the sentinel in the cache is not a hit: every later read goes to the
      store again. There is no negative caching. */
  lemma NoNegativeCaching(s: Stores, productId: int, now: int, db2: Database.Db, t: int, cacheFault2: Option<Error>, dbFault2: Option<Error>)
    requires productId !in s.db.products
    requires RedisCache.Get(s.cache, RedisCache.ProductKey(productId), now).None?
    ensures var first := GetProductByID(s, productId, now, None, None);
            && first.result == Success(ZeroProduct)
            && first.writeBack == Some(WriteBack(ZeroProduct, productId))
            && var c' := Populate(s.cache, first.writeBack.value, now, None);
               GetProductByID(Stores(db2, c'), productId, t, cacheFault2, dbFault2).readDb
  {
    Codec.ProductRoundTrip(ZeroProduct);
  }

  /** Once the entry has expired, the next read goes back to the store and
      sees its current contents. */
  lemma ExpiredEntryRereads(s: Stores, productId: int, now: int, db2: Database.Db, t: int)
    requires t >= now + RedisCache.ProductTtl
    requires productId in s.db.products && productId != 0
    ensures var c' := Populate(s.cache, WriteBack(s.db.products[productId], productId), now, None);
            GetProductByID(Stores(db2, c'), productId, t, None, None) == LoadFromDb(db2, productId, None)
  {
    RedisCache.ProductEntryExpires(s.cache, s.db.products[productId], productId, now, t);
  }

  // ---------------------------------------------------------------------------
  // Category lookup and stock operations
  // ---------------------------------------------------------------------------

  /** Straight to the store; the cache is neither read nor written. */
  function GetProductCategoryByID(s: Stores, categoryId: int, dbFault: Option<Error>): (r: Result<ProductCategory, Error>)
    ensures dbFault.Some? <==> r.Failure?
    ensures r.Failure? ==> r.error == dbFault.value
    ensures r.Success? ==> (IsPresentCategory(r.value) ==> categoryId in s.db.categories && r.value == s.db.categories[categoryId])
    ensures r.Success? && categoryId !in s.db.categories ==> r.value == ZeroCategory
    ensures Database.Valid(s.db) && r.Success? ==>
      (IsPresentCategory(r.value) <==> categoryId in s.db.categories && categoryId != 0)
  {
    Database.FindProductCategoryByID(s.db, categoryId, dbFault)
  }

  /** Whatever the cache holds — even a live entry for this very id — the
      category lookup gives the same answer. */
  lemma CategoryLookupIgnoresCache(db: Database.Db, c1: RedisCache.Cache, c2: RedisCache.Cache, categoryId: int, dbFault: Option<Error>)
    ensures GetProductCategoryByID(Stores(db, c1), categoryId, dbFault) == GetProductCategoryByID(Stores(db, c2), categoryId, dbFault)
  {
  }

  /** Delegates to the repository; its error comes back unchanged and the cache is untouched. */
  function DeductProductStockByProductID(s: Stores, productId: int, qty: int, fault: Option<Error>): (r: Result<Stores, Error>)
    ensures fault.Some? ==> r == Failure(fault.value)
    ensures r.Success? ==>
      r.value.cache == s.cache && Success(r.value.db) == Database.DeductProductStockByProductID(s.db, productId, qty, fault)
    ensures fault.None? ==> r.Success?
  {
    match Database.DeductProductStockByProductID(s.db, productId, qty, fault)
    case Failure(e) => Failure(e)
    case Success(db) => Success(s.(db := db))
  }

  function AddProductStockByProductID(s: Stores, productId: int, qty: int, fault: Option<Error>): (r: Result<Stores, Error>)
    ensures fault.Some? ==> r == Failure(fault.value)
    ensures r.Success? ==>
      r.value.cache == s.cache && Success(r.value.db) == Database.AddProductStockByProductID(s.db, productId, qty, fault)
    ensures fault.None? ==> r.Success?
  {
    match Database.AddProductStockByProductID(s.db, productId, qty, fault)
    case Failure(e) => Failure(e)
    case Success(db) => Success(s.(db := db))
  }
}

=== FILE: strconv.dfy ===
/** Decimal text for 64-bit integers, as the Go standard library produces and
    reads it: `fmt.Sprintf("%d", i)` (used to build cache keys) and
    `strconv.ParseInt(s, 10, 64)` / `strconv.Atoi(s)` (used to read path and
    query parameters). The scanner follows ParseUint's digit loop, so an
    overflow is reported as soon as the accumulated value passes 2^64-1, even
    when a non-digit follows later. */
module Strconv {
  import opened GoInt

  predicate IsDigit(c: char) {
    '0' <= c <= '9'
  }

  predicate AllDigits(s: string) {
    forall i :: 0 <= i < |s| ==> IsDigit(s[i])
  }

  function DigitValue(c: char): nat
    requires IsDigit(c)
  {
    (c as int) - ('0' as int)
  }

  function DigitChar(d: nat): (c: char)
    requires d < 10
    ensures IsDigit(c) && DigitValue(c) == d
  {
    (('0' as int) + d) as char
  }

  // ---------------------------------------------------------------------------
  // Formatting (fmt %d)
  // ---------------------------------------------------------------------------

  /** The shortest decimal spelling of `n`, most significant digit first. */
  function NatToDecimal(n: nat): (s: string)
    ensures |s| >= 1 && AllDigits(s)
    ensures s[0] == '0' ==> n == 0
    decreases n
  {
    if n < 10 then [DigitChar(n)] else NatToDecimal(n / 10) + [DigitChar(n % 10)]
  }

  /** `fmt.Sprintf("%d", i)`: a minus sign for negative values, then the digits. */
  function FormatInt(i: int): (s: string)
    ensures |s| >= 1
    ensures s[0] == '-' <==> i < 0
    ensures i >= 0 ==> AllDigits(s)
    ensures i < 0 ==> AllDigits(s[1..]) && |s| >= 2
  {
    if i < 0 then "-" + NatToDecimal(-i) else NatToDecimal(i)
  }

  // ---------------------------------------------------------------------------
  // Parsing (strconv.ParseInt base 10, bitSize 64; strconv.Atoi on 64-bit)
  // ---------------------------------------------------------------------------

  /** What Go's ParseInt yields: a value, a syntax error (Go returns 0 with it),
      or a range error (Go returns the clamped bound with it). */
  datatype ParseResult = Parsed(value: int) | SyntaxError | RangeError(clamped: int)

  datatype UintScan = UintValue(n: nat) | UintSyntax | UintRange

  /** The left-to-right digit loop of ParseUint, starting from accumulator `acc`. */
  function ScanDigits(s: string, acc: nat): UintScan
    decreases |s|
  {
    if |s| == 0 then UintValue(acc)
    else if !IsDigit(s[0]) then UintSyntax
    else
      var n := acc * 10 + DigitValue(s[0]);
      if n > MaxUint64 then UintRange else ScanDigits(s[1..], n)
  }

  function ParseUint(s: string): UintScan {
    if |s| == 0 then UintSyntax else ScanDigits(s, 0)
  }

  /** An optional sign followed by at least one decimal digit. */
  predicate IsIntegerLiteral(s: string) {
    |s| >= 1 &&
    var digits := if s[0] == '+' || s[0] == '-' then s[1..] else s;
    |digits| >= 1 && AllDigits(digits)
  }

  /** The integer a literal denotes: its sign applied to its digits' value. */
  function LiteralValue(s: string): int
    requires IsIntegerLiteral(s)
  {
    var digits := if s[0] == '+' || s[0] == '-' then s[1..] else s;
    if s[0] == '-' then -(DigitsValue(0, digits) as int) else DigitsValue(0, digits)
  }

  /** Nothing numeric up front: empty, or the character after an optional
      sign is missing or is not a digit (`"abc"`, `"-"`, `"+x1"`). */
  predicate NoLeadingDigit(s: string) {
    |s| == 0 ||
    var digits := if s[0] == '+' || s[0] == '-' then s[1..] else s;
    |digits| == 0 || !IsDigit(digits[0])
  }

  lemma ScanDigitsSyntax(s: string, acc: nat)
    ensures ScanDigits(s, acc).UintValue? ==> AllDigits(s)
    ensures AllDigits(s) ==> !ScanDigits(s, acc).UintSyntax?
    decreases |s|
  {
    if |s| > 0 && IsDigit(s[0]) {
      var n := acc * 10 + DigitValue(s[0]);
      if n <= MaxUint64 {
        ScanDigitsSyntax(s[1..], n);
      }
    }
  }

  function ParseInt(s: string): (r: ParseResult)
    ensures r.Parsed? ==> IsIntegerLiteral(s) && IsInt64(r.value)
    ensures r.RangeError? ==> r.clamped == MaxInt64 || r.clamped == MinInt64
    ensures IsIntegerLiteral(s) ==> !r.SyntaxError?
    ensures NoLeadingDigit(s) ==> r.SyntaxError?
    ensures IsIntegerLiteral(s) && IsInt64(LiteralValue(s)) ==> r == Parsed(LiteralValue(s))
    ensures IsIntegerLiteral(s) && LiteralValue(s) > MaxInt64 ==> r == RangeError(MaxInt64)
    ensures IsIntegerLiteral(s) && LiteralValue(s) < MinInt64 ==> r == RangeError(MinInt64)
    ensures !IsIntegerLiteral(s) && |s| <= 20 ==> r.SyntaxError?
  {
    if |s| == 0 then SyntaxError
    else
      var neg := s[0] == '-';
      var digits := if s[0] == '+' || s[0] == '-' then s[1..] else s;
      ScanDigitsSyntax(digits, 0);
      ParseUintFacts(digits);
      match ParseUint(digits)
      case UintSyntax => SyntaxError
      case UintRange => if neg then RangeError(MinInt64) else RangeError(MaxInt64)
      case UintValue(u) =>
        if !neg && u > MaxInt64 then RangeError(MaxInt64)
        else if neg && u > MaxInt64 + 1 then RangeError(MinInt64)
        else Parsed(if neg then -(u as int) else u)
  }

  /** `strconv.Atoi` on a 64-bit platform: its fast path for short inputs and
      its fallback to ParseInt agree on every input, so it is ParseInt. */
  function Atoi(s: string): (r: ParseResult)
    ensures r.Parsed? ==> IsIntegerLiteral(s) && IsInt64(r.value)
    ensures r.RangeError? ==> r.clamped == MaxInt64 || r.clamped == MinInt64
    ensures IsIntegerLiteral(s) ==> !r.SyntaxError?
    ensures NoLeadingDigit(s) ==> r.SyntaxError?
    ensures IsIntegerLiteral(s) && IsInt64(LiteralValue(s)) ==> r == Parsed(LiteralValue(s))
    ensures IsIntegerLiteral(s) && LiteralValue(s) > MaxInt64 ==> r == RangeError(MaxInt64)
    ensures IsIntegerLiteral(s) && LiteralValue(s) < MinInt64 ==> r == RangeError(MinInt64)
    ensures !IsIntegerLiteral(s) && |s| <= 20 ==> r.SyntaxError?
  {
    ParseInt(s)
  }

  /** A trailing non-digit is a syntax error; a leading zero or plus sign is accepted. */
  lemma ParseIntSamples()
    ensures ParseInt("5x") == SyntaxError && ParseInt("1.5") == SyntaxError
    ensures ParseInt("05") == Parsed(5) && ParseInt("+5") == Parsed(5) && ParseInt("-05") == Parsed(-5)
  {
    assert !IsDigit("5x"[1]) && !IsDigit("1.5"[1]);
    assert LiteralValue("05") == 5 && LiteralValue("+5") == 5 && LiteralValue("-05") == -5;
  }

  /** The integer Go hands back alongside the error, which a caller writing
      `v, _ := strconv.Atoi(s)` keeps. */
  function ValueIgnoringError(r: ParseResult): int {
    match r
    case Parsed(v) => v
    case SyntaxError => 0
    case RangeError(c) => c
  }

  // ---------------------------------------------------------------------------
  // Round trip and injectivity
  // ---------------------------------------------------------------------------

  /** The number a string of digits denotes, read left to right from `acc`. */
  function DigitsValue(acc: nat, s: string): nat
    requires AllDigits(s)
    decreases |s|
  {
    if |s| == 0 then acc else DigitsValue(acc * 10 + DigitValue(s[0]), s[1..])
  }

  lemma {:induction false} DigitsValueAtLeast(acc: nat, s: string)
    requires AllDigits(s)
    ensures DigitsValue(acc, s) >= acc
    decreases |s|
  {
    if |s| > 0 {
      DigitsValueAtLeast(acc * 10 + DigitValue(s[0]), s[1..]);
    }
  }

  lemma {:induction false} DigitsValueSnoc(acc: nat, s: string, c: char)
    requires AllDigits(s) && IsDigit(c)
    ensures AllDigits(s + [c])
    ensures DigitsValue(acc, s + [c]) == DigitsValue(acc, s) * 10 + DigitValue(c)
    decreases |s|
  {
    if |s| == 0 {
      assert s + [c] == [c];
    } else {
      assert (s + [c])[1..] == s[1..] + [c];
      DigitsValueSnoc(acc * 10 + DigitValue(s[0]), s[1..], c);
    }
  }

  /** Reading back the digits NatToDecimal writes gives the number again. */
  lemma {:induction false} NatToDecimalValue(n: nat)
    ensures DigitsValue(0, NatToDecimal(n)) == n
    decreases n
  {
    if n >= 10 {
      NatToDecimalValue(n / 10);
      DigitsValueSnoc(0, NatToDecimal(n / 10), DigitChar(n % 10));
    }
  }

  /** The scan loop never overflows while the final value fits in 64 bits. */
  lemma {:induction false} ScanDigitsValue(s: string, acc: nat)
    requires AllDigits(s) && DigitsValue(acc, s) <= MaxUint64
    ensures ScanDigits(s, acc) == UintValue(DigitsValue(acc, s))
    decreases |s|
  {
    if |s| > 0 {
      var n := acc * 10 + DigitValue(s[0]);
      DigitsValueAtLeast(n, s[1..]);
      ScanDigitsValue(s[1..], n);
    }
  }

  function Pow10(k: nat): nat {
    if k == 0 then 1 else 10 * Pow10(k - 1)
  }

  lemma {:induction false} Pow10Add(a: nat, b: nat)
    ensures Pow10(a + b) == Pow10(a) * Pow10(b)
    decreases a
  {
    if a > 0 {
      Pow10Add(a - 1, b);
      assert Pow10(a + b) == 10 * Pow10(a - 1 + b);
    }
  }

  lemma {:induction false} Pow10AtMost19(k: nat)
    requires k <= 19
    ensures Pow10(k) <= 10_000_000_000_000_000_000
    decreases 19 - k
  {
    if k < 19 {
      Pow10AtMost19(k + 1);
    } else {
      Pow10Add(10, 9);
      assert Pow10(10) == 10_000_000_000;
      assert Pow10(9) == 1_000_000_000;
    }
  }

  /** The digit loop meets a non-digit before it can overflow when the input
      is short: with fewer than 20 digits the accumulator stays below 10^19. */
  lemma {:induction false} ScanDigitsShortSyntax(s: string, acc: nat, k: nat)
    requires !AllDigits(s)
    requires acc < Pow10(k) && k + |s| <= 20
    ensures ScanDigits(s, acc) == UintSyntax
    decreases |s|
  {
    if IsDigit(s[0]) {
      var n := acc * 10 + DigitValue(s[0]);
      assert !AllDigits(s[1..]) by {
        var i :| 0 <= i < |s| && !IsDigit(s[i]);
        assert i >= 1 && s[1..][i - 1] == s[i];
      }
      assert |s| >= 2;
      Pow10AtMost19(k + 1);
      assert n < Pow10(k + 1);
      ScanDigitsShortSyntax(s[1..], n, k + 1);
    }
  }

  /** Once the value of the digits passes 2^64-1, the loop reports a range error. */
  lemma {:induction false} ScanDigitsOverflow(s: string, acc: nat)
    requires AllDigits(s) && acc <= MaxUint64 && DigitsValue(acc, s) > MaxUint64
    ensures ScanDigits(s, acc) == UintRange
    decreases |s|
  {
    var n := acc * 10 + DigitValue(s[0]);
    if n <= MaxUint64 {
      ScanDigitsOverflow(s[1..], n);
    }
  }

  /** What ParseUint yields, by the shape and value of its input. */
  lemma ParseUintFacts(d: string)
    ensures AllDigits(d) && |d| >= 1 && DigitsValue(0, d) <= MaxUint64 ==> ParseUint(d) == UintValue(DigitsValue(0, d))
    ensures AllDigits(d) && |d| >= 1 && DigitsValue(0, d) > MaxUint64 ==> ParseUint(d) == UintRange
    ensures !(|d| >= 1 && AllDigits(d)) && |d| <= 20 ==> ParseUint(d) == UintSyntax
  {
    if |d| >= 1 {
      if AllDigits(d) {
        if DigitsValue(0, d) <= MaxUint64 {
          ScanDigitsValue(d, 0);
        } else {
          ScanDigitsOverflow(d, 0);
        }
      } else if |d| <= 20 {
        ScanDigitsShortSyntax(d, 0, 0);
      }
    }
  }

  /** ParseInt reads back every int64 that FormatInt writes. */
  lemma ParseFormatRoundTrip(i: int)
    requires IsInt64(i)
    ensures ParseInt(FormatInt(i)) == Parsed(i)
  {
    var n: nat := Abs(i);
    NatToDecimalValue(n);
    ScanDigitsValue(NatToDecimal(n), 0);
    if i < 0 {
      assert FormatInt(i)[1..] == NatToDecimal(n);
    }
  }

  /** Distinct integers have distinct decimal spellings (for every integer,
      not only the int64 ones). */
  lemma FormatIntInjective(a: int, b: int)
    requires FormatInt(a) == FormatInt(b)
    ensures a == b
  {
    NatToDecimalValue(Abs(a));
    NatToDecimalValue(Abs(b));
    if a < 0 {
      assert FormatInt(a)[1..] == NatToDecimal(-a);
      assert FormatInt(b)[1..] == NatToDecimal(-b);
    }
  }
}

=== FILE: wrappers.dfy ===
/** Failure-compatible wrappers used throughout the model: Go's `(value, error)`
    pairs become a `Result`, and optional values (a pending write-back, an
    injected infrastructure fault) become an `Option`. */
module Wrappers {

  datatype Option<+T> = None | Some(value: T)

  datatype Result<+R, +E> = Success(value: R) | Failure(error: E) {

    predicate IsFailure() {
      Failure?
    }

    function PropagateFailure<U>(): Result<U, E>
      requires Failure?
    {
      Failure(error)
    }

    function Extract(): R
      requires Success?
    {
      value
    }
  }
}
